=== FILE: README.md ===
# scribe-rs core, modelled in Dafny

scribe-rs turns a scanned PDF book into one Markdown file, in three stages:

- **extract**: render each page to `page_NNNN.png`;
- **transcribe**: send each page image to a vision model and store the reply as `page_NNNN.md`;
- **combine**: concatenate the transcripts into one document with a table of contents.

This project models the deterministic part of `src/main.rs`:

- the page naming scheme and its round trip through the combine parser;
- `combine_book` as a pure function from directory listings to either a mismatch error or the document. This covers:
  - the exact recognisers for its two regexes;
  - slug generation and de-duplication;
  - the ToC lines;
  - document assembly;
- the code-fence clean-up of a model reply;
- the selection rules and failure bookkeeping of the extract and transcribe stages.

Directory listings and file contents are sequences of strings. The PDF renderer and the model service are parameters: the set of pages that fail to render, and a map from image name to reply text.

Modules, one file each:

- `wrappers.dfy`, module `Wrappers`: `Option` and `Result`
- `text.dfy`, module `Text`: the `str` operations used: `trim*`, `starts_with`, `find`, `rfind`, `lines`, `join`, `repeat`, `replace`, `Path::file_stem`
- `numbers.dfy`, module `Numbers`: decimal rendering, `{:04}` padding, `str::parse::<usize>`
- `page_names.dfy`, module `PageNames`: `page_{:04}.png`, `<stem>.md`, and parsing `page_<n>.md`
- `image_strip.dfy`, module `ImageStrip`: `replace_all` of the image-link regex, with leftmost-first semantics
- `headers.dfy`, module `Headers`: the header regex, slugs, the slug counter map, ToC lines
- `page_sort.dfy`, module `PageSort`: the stable sort by page number
- `combine.dfy`, module `Combine`: `combine_book`
- `fence.dfy`, module `Fence`: the fence clean-up as written, and as intended
- `stages.dfy`, module `Stages`: page count, extraction outcomes, candidate selection, transcription outcomes and failure count

Regex semantics that the recognisers encode:

- **Image links.** For `!\[.*?\]\([^\)]*?img/[^\)]*\)` the leftmost-first match starting at `![` is the shortest one. The lazy `.*?` tries each `](` in turn, without crossing a line feed. At each it takes the target up to the first `)` when `img/` occurs before that `)`; when it does not, the scan passes over that `](` and continues to the next one. So `![a](x) b](img/c)` is removed whole.
- **Headers.** For `^(#+)\s+(.+)$` the level is the whole run of leading `#`. The captured text is what follows the whole whitespace run. The exception is a line that ends inside that run: the run then gives back its last character, so `#  ` has a one-space title that trims to nothing.
- `\s` and `trim` use the Unicode White_Space property.

## Model

| member | source | states |
|---|---|---|
| `Text.TrimStart` | src/main.rs:461 | the result is a suffix of the input; everything removed is whitespace; the result does not start with whitespace |
| `Text.TrimEnd` | src/main.rs:468 | the result is a prefix of the input; everything removed is whitespace; the result does not end with whitespace |
| `Text.TrimStartPadded` | src/main.rs:461 | `trim_start` removes exactly a whitespace padding in front of a text that does not start with whitespace |
| `Text.TrimStartSkipsWhitespace` | src/main.rs:245 | whitespace put in front of any text does not change its `trim_start` |
| `Text.TrimEndPadded` | src/main.rs:468 | `trim_end` removes exactly a whitespace padding behind a text that does not end with whitespace |
| `Text.TrimSplit` | src/main.rs:237 | `trim` cuts a text into leading whitespace, the trimmed text and trailing whitespace, which concatenate back to the input |
| `Text.FindChar` | src/main.rs:463 | `find` returns the first index of the character, or nothing when it does not occur |
| `Text.FindCharFrom` | src/main.rs:463 | the scan from a position returns the first occurrence at or after it, or nothing when there is none there |
| `Text.FindCharAfter` | src/main.rs:463 | in `a + [c] + b` with no `c` in `a`, `find(c)` returns `|a|` |
| `Text.RFind` | src/main.rs:467 | `rfind` returns an occurrence with no later occurrence, or nothing when there is none |
| `Text.Lines` | src/main.rs:242 | no line contains a line feed; the empty text has no lines and any other text has at least one |
| `Text.LinesOfLine` | src/main.rs:242 | a text without a line feed is one line, kept whole, including a final carriage return |
| `Text.LinesCons` | src/main.rs:242 | the text before the first line feed is the first line, with a carriage return in front of the line feed dropped, and the rest gives the remaining lines |
| `Text.LinesCrLf` | src/main.rs:242 | a line ended by `\r\n` loses both characters |
| `Text.Repeat` | src/main.rs:262 | the repetition is `n` times as long as the string, starts with the string when `n > 0`, and repeats with the string's length as period, so every character is fixed |
| `Text.ReplaceChar` | src/main.rs:249 | each character equal to `from` becomes `to`, and every other character is kept, position by position |
| `Text.ConcatSplit` | src/main.rs:267-268 | a concatenation splits around any of its parts |
| `Text.JoinSnoc` | src/main.rs:273 | `join` puts the separator between neighbouring parts: one more part adds the separator and that part at the end |
| `Text.JoinOne` | src/main.rs:273 | a single part is joined as itself, without a separator |
| `Text.FileStem` | src/main.rs:396 | the stem is a prefix of the file name |
| `Text.FileStemNoDot` | src/main.rs:271 | a name without a `.` is its own stem |
| `Text.FileStemLeadingDot` | src/main.rs:396 | a name whose only `.` is its first character, such as `.png`, is its own stem |
| `Text.FileStemLastDot` | src/main.rs:271 | the stem of `a.b`, with no `.` in `b`, is `a`, however many dots `a` holds; only `..` is kept whole |
| `Numbers.Decimal` | src/main.rs:239 | the decimal rendering is a non-empty digit string without a leading zero |
| `Numbers.ZeroPad4` | src/main.rs:312 | `{:04}` gives a digit string of at least four characters: exactly four below 10000, and the plain rendering from 1000 up |
| `Numbers.DecimalWidth` | src/main.rs:312 | the rendering of `n` fits in `k` digits exactly when `n < 10^k` |
| `Numbers.ZeroPad4Value` | src/main.rs:312 | the zero-padded rendering of `n` still denotes `n` |
| `Numbers.ParseUsize` | src/main.rs:174 | a parsed value never exceeds `usize::MAX` |
| `Numbers.DecimalValue` | src/main.rs:239 | the decimal rendering of `n` denotes `n` |
| `Numbers.LeadingZerosValue` | src/main.rs:312 | leading zeros do not change the value of a digit string |
| `Numbers.ParseDigits` | src/main.rs:174 | a non-empty digit string whose value fits a `usize` parses to that value |
| `Numbers.ParsePlus` | src/main.rs:174 | one leading `+` is accepted and changes nothing |
| `Numbers.DecimalOfValue` | src/main.rs:174 | a digit string without a leading zero is the decimal rendering of its value |
| `Numbers.DigitsCanonical` | src/main.rs:174 | every non-empty digit string is zeros followed by the rendering of its value |
| `Numbers.ParseUsizeShape` | src/main.rs:174 | conversely, only an optional `+`, then zeros, then the rendering of `v` parses as `v`; a sign `-`, a letter or an empty string never parses |
| `Numbers.ParseDecimal` | src/main.rs:174 | parsing the rendering of `n`, plain or zero-padded to four digits, gives back `n` |
| `PageNames.PrefixSuffixLength` | src/main.rs:170-173 | a name that starts with `page_` and ends with `.md` has at least eight characters, so the slice `[5..len-3]` is in range |
| `PageNames.PageImageName` | src/main.rs:312 | the image name of page index `n` is `page_`, a digit string whose value is `n+1`, and `.png` |
| `PageNames.TranscriptName` | src/main.rs:396-397 | the transcript name ends in `.md`, and what precedes it is a prefix of the image name |
| `PageNames.ParsePageNumber` | src/main.rs:170-176 | a name yields a page number only if it has the `page_` prefix and `.md` suffix, and the number fits a `usize` |
| `PageNames.ParsePageNumberOf` | src/main.rs:170-176 | the number read from `page_<d>.md` is exactly the parse of `d` |
| `PageNames.StemOfPageImage` | src/main.rs:312 | the stem of `page_{:04}.png` is `page_` followed by the padded number |
| `PageNames.NameRoundTrip` | src/main.rs:312 | the transcript name of page index `n`'s image is `page_{:04}.md` of `n+1`, and the combine parser reads `n+1` back from it |
| `PageNames.PageImageNameProperties` | src/main.rs:312 | every page image name passes both the combine image filter and the transcription filter, and distinct indices give distinct names |
| `ImageStrip.HasImgInIff` | src/main.rs:226 | the scan for `img/` succeeds exactly when `img/` occurs inside the given range |
| `ImageStrip.LinkTail` | src/main.rs:226 | the match end, when there is one, lies after the given position and follows a `)` |
| `ImageStrip.LinkTailSound` | src/main.rs:226 | the tail found holds no `)` before its end and contains `img/`, as the pattern's `[^\)]*?img/[^\)]*\)` demands |
| `ImageStrip.LinkTailAt` | src/main.rs:226 | a run without `)` that holds `img/` and is closed by `)` is taken as the link target, up to that `)` |
| `ImageStrip.CloseFrom` | src/main.rs:226 | the match end, when there is one, lies after the `](` and follows a `)` |
| `ImageStrip.MatchAt` | src/main.rs:226 | a match at `i` ends more than four characters later |
| `ImageStrip.StripFrom` | src/main.rs:236 | stripping never lengthens the rest of the text |
| `ImageStrip.StripImages` | src/main.rs:236 | stripping never lengthens the text |
| `ImageStrip.CloseFromSound` | src/main.rs:226 | the end found closes a link whose alt text crosses no line feed and whose target holds `img/` and no `)` |
| `ImageStrip.CloseFromReaches` | src/main.rs:226 | scanning the alt text without crossing a line feed stops at a `](` no later than any reachable one whose target matches |
| `ImageStrip.CloseFromShortest` | src/main.rs:226 | no link that closes at `e` ends before the end found |
| `ImageStrip.MatchAtIsShortestMatch` | src/main.rs:226 | the recogniser finds a match at `i` exactly when the pattern matches there, and its match is the shortest, which is the leftmost-first one |
| `ImageStrip.StripFromWithoutBang` | src/main.rs:236 | from any position, a text without `![` is kept as it is |
| `ImageStrip.StripWithoutBang` | src/main.rs:236 | a text without `![` is left untouched |
| `ImageStrip.StripFromPlain` | src/main.rs:236 | a stretch without `!` is copied unchanged |
| `ImageStrip.CloseFromSkips` | src/main.rs:226 | the alt-text scan passes over characters that are neither `]` nor a line feed |
| `ImageStrip.LinkTailFails` | src/main.rs:226 | a target that reaches its first `)` without holding `img/` gives no link tail |
| `ImageStrip.MatchPastFailedTarget` | src/main.rs:226 | when the target after the first `](` fails, the lazy alt text runs on over it to a later `](` on the same line, and the match ends at that target's `)` |
| `ImageStrip.StripPastFailedTarget` | src/main.rs:226-236 | `![alt](target) mid](path)` with no `img/` in `target` and `img/` in `path` is removed whole |
| `ImageStrip.MatchPlainLink` | src/main.rs:226 | a link whose alt text has no `]` or line feed, and whose target has no `)` but holds `img/`, matches exactly up to its `)` |
| `ImageStrip.LinkAt` | src/main.rs:226 | a plain image link found at a position of a text is matched from its `!` to its `)` |
| `ImageStrip.StripAroundMatch` | src/main.rs:236 | with no other `!` in the text, exactly the matched link is removed |
| `ImageStrip.LinkInText` | src/main.rs:226 | a plain image link inside a text is matched from its `!` to its `)` |
| `ImageStrip.StripRemovesLink` | src/main.rs:236 | an `img/` link between text without `!` is removed, and nothing else is |
| `Headers.LeadingCount` | src/main.rs:229 | the count is the length of the leading run of the character |
| `Headers.WhitespaceRun` | src/main.rs:229 | the count is the length of the whitespace run at the position |
| `Headers.ParseHeader` | src/main.rs:243-244 | a match has a level of at least one and a non-empty capture |
| `Headers.ParseHeaderSound` | src/main.rs:229 | an accepted line splits as the whole `#` run, whitespace, and the capture, which is the rest of the line |
| `Headers.ParseHeaderComplete` | src/main.rs:229 | every line of the shape `#+`, whitespace, non-empty text is accepted |
| `Headers.ParseHeaderIsPattern` | src/main.rs:229 | a line matches exactly when it splits as `#+`, whitespace, and non-empty text without a line feed; the level is the whole `#` run, and the capture is a suffix of the line |
| `Headers.LeadingCountIs` | src/main.rs:229 | a run of `n` characters followed by a different one is counted as `n` |
| `Headers.WhitespaceRunCovers` | src/main.rs:229 | the whitespace run covers any whitespace stretch that starts at the position |
| `Headers.Lowercase` | src/main.rs:248 | lower-casing maps each character independently and keeps the length |
| `Headers.KeepSlugChars` | src/main.rs:250-252 | filtering never lengthens the text |
| `Headers.SlugBase` | src/main.rs:248-252 | the slug base is never longer than the title |
| `Headers.KeepSlugCharsAppend` | src/main.rs:250-252 | the filter works character by character: filtering a concatenation concatenates the filtered parts |
| `Headers.KeepSlugCharsOfLower` | src/main.rs:250-252 | after filtering, only slug characters remain |
| `Headers.SlugBaseChars` | src/main.rs:248-252 | every slug base consists only of lower-case letters, digits and `-` |
| `Headers.KeepSlugCharsOfSlug` | src/main.rs:250-252 | a text of slug characters passes the filter unchanged |
| `Headers.SlugBaseFixedPoint` | src/main.rs:248-252 | a title that is already made of slug characters is its own slug base, so slugging is idempotent |
| `Headers.SlugBaseAppend` | src/main.rs:248-252 | the slug base of a concatenation is the concatenation of the slug bases |
| `Headers.AssignSlugs` | src/main.rs:254-260 | every header gets exactly one slug |
| `Headers.NextSlugStep` | src/main.rs:254-260 | the step `NextSlug` for one header: the header gets its base numbered by how often the base was recorded before, and the counters then record that base once more and every other base as before |
| `Headers.AssignSlugsFinal` | src/main.rs:222 | after a run, the counter map records each base once more for each header with that base, and is unchanged for every other base |
| `Headers.AssignSlugsAt` | src/main.rs:254-260 | header `i` gets its base with `-k` appended, where `k` counts the earlier headers with the same base; with no earlier one it gets the bare base |
| `Headers.AssignSlugsCounts` | src/main.rs:222 | both of the above at once: each header's slug depends only on the earlier headers with the same base, and the counter of one base never affects another |
| `Headers.TocLineIndent` | src/main.rs:262-263 | a ToC line (`TocLine`) starts with exactly `2*(level-1)` spaces and then `- [title](slug)` |
| `Headers.AllSpaces` | src/main.rs:262 | the indent is made of spaces only |
| `Headers.RepeatedBase` | src/main.rs:254-260 | two headers with the same base get `base` and `base-1` |
| `Headers.CountersCanCollide` | src/main.rs:254-260 | a header whose own base is `base-1` gets the same slug as the second header with base `base`, because only bases are tracked |
| `PageSort.InsertPermutes` | src/main.rs:183 | an insertion step adds exactly the inserted element |
| `PageSort.InsertAbove` | src/main.rs:183 | an insertion step keeps a lower bound that the inserted element and all others meet |
| `PageSort.SortByNumberPermutes` | src/main.rs:183 | the sort returns a permutation of its input |
| `PageSort.InsertSorted` | src/main.rs:183 | inserting into a sorted sequence keeps it sorted |
| `PageSort.SortByNumberSorted` | src/main.rs:183 | the sort returns its input ordered by page number |
| `PageSort.WithNumberAppend` | src/main.rs:183 | selecting one page number commutes with concatenation |
| `PageSort.WithNumberAbove` | src/main.rs:183 | a sequence with only larger page numbers holds none of the selected number |
| `PageSort.InsertWithNumber` | src/main.rs:183 | an insertion step puts the new element after every element with the same page number |
| `PageSort.SortByNumberStable` | src/main.rs:183 | the sort is stable: files with the same page number keep their order |
| `PageSort.SortByNumberOfSorted` | src/main.rs:183 | an already sorted input comes back unchanged |
| `PageSort.InsertAtEnd` | src/main.rs:183 | an element no smaller than all the others is inserted at the end |
| `Combine.KeptFiles` | src/main.rs:166-180 | the kept list is never longer than the listing, and it is empty exactly when no entry is a `page_<n>.md` file |
| `Combine.KeptFilesAppend` | src/main.rs:166-180 | files are kept entry by entry: the kept files of two listings together are those of the first followed by those of the second, so order and repeats follow the listing |
| `Combine.KeptFilesMembers` | src/main.rs:168-176 | a file is kept with number `n` exactly when the listing has a file of that name whose middle parses as `n`; its content is unchanged |
| `Combine.KeptFilesAll` | src/main.rs:166-180 | a listing of transcripts only is kept entry by entry, in place |
| `Combine.ImageCount` | src/main.rs:195-205 | the count is zero exactly when the listing holds no `page_*.png` file, and never exceeds the listing length |
| `Combine.ImageCountAll` | src/main.rs:195-205 | a listing of page images only is counted in full |
| `Combine.ImageCountAppend` | src/main.rs:195-205 | the count of two listings together is the sum of their counts |
| `Combine.ImageCountIsSize` | src/main.rs:195-205 | the count is the number of positions in the listing that hold a `page_*.png` file |
| `Combine.LineHeading` | src/main.rs:243-245 | a line gives at most one ToC entry, with a level of at least one |
| `Combine.HeadingsOf` | src/main.rs:242-245 | a page gives at most one ToC entry per line, all on that page, each with a level of at least one |
| `Combine.HeadingsOfAppend` | src/main.rs:242 | headers are collected line by line: the headers of two runs of lines are the headers of each, in order |
| `Combine.HeadingOfLine` | src/main.rs:243-245 | a line gives a ToC entry exactly when it has the shape `#+`, whitespace, text; the level is the number of leading `#`, and the title is the rest of the line, trimmed |
| `Combine.HeadingTitle` | src/main.rs:243-245 | an accepted header line gives one entry whose level is its `#` count and whose title is the rest of the line, trimmed |
| `Combine.HeaderTitle` | src/main.rs:245 | trimming the capture gives the same title as trimming everything after the `#` run |
| `Combine.BodySplit` | src/main.rs:231-269 | page `i`'s block, made of its anchor, its cleaned text and the rule, follows the blocks of all earlier pages |
| `Combine.Toc` | src/main.rs:263 | one ToC line per header of the book |
| `Combine.TocEntries` | src/main.rs:254-263 | ToC line `i` links header `i` of the book. Its slug is the bare base when no earlier header in the whole book has that base, and `base-k` when `k` earlier headers have it |
| `Combine.BookTitle` | src/main.rs:271-272 | the title is empty without an output file name, is never longer than the name, and never shows an `_` |
| `Combine.BookTitleOfName` | src/main.rs:271-272 | the title of an output file `a.b` is `a` with `_` shown as a space, so `my_book.md` is titled `my book` |
| `Combine.BookTitleNoDot` | src/main.rs:271-272 | an output name without a `.` is the title as it is, with `_` shown as a space |
| `Combine.Document` | src/main.rs:271-275 | the document opens with the title line `# <title>` and ends with the page blocks |
| `Combine.CombineBook` | src/main.rs:161-281 | "nothing found" exactly when no entry is a transcript. A mismatch error exactly when there are transcripts and an images listing whose count differs; the error carries both counts. Otherwise the pages are sorted by number, are a permutation of the kept files, and are written into the document |
| `Combine.WrittenStable` | src/main.rs:183 | written pages that share a number keep the order of the listing |
| `Combine.SortedUniqueAscending` | src/main.rs:239 | when no two transcripts share a page number, the anchors are strictly ascending |
| `Combine.TwoWithNumber` | src/main.rs:183 | two files with the same number are both selected by that number |
| `Combine.OneWithNumber` | src/main.rs:183 | a file is selected by its own number |
| `Combine.TranscriptListing` | src/main.rs:396-397 | one transcript per extracted page |
| `Combine.ImageListing` | src/main.rs:312 | one image per extracted page |
| `Combine.KeptTranscripts` | src/main.rs:170-176 | every transcript of a complete run is kept, and page index `i` is numbered `i+1` |
| `Combine.CountImages` | src/main.rs:195-205 | all extracted images are counted |
| `Combine.CompleteBook` | src/main.rs:207-213 | after extracting and transcribing `n` pages, the check passes and the book holds pages `1..n` in order, each with its own transcript |
| `Fence.StripFenceAsWritten` | src/main.rs:461-470 | the reply is unchanged unless its left-trimmed form starts with three backticks; the result is never longer than the reply and is a contiguous part of it |
| `Fence.AfterFirstLine` | src/main.rs:463-465 | cutting after the first line feed leaves a suffix of the reply |
| `Fence.BeforeLastFence` | src/main.rs:467-469 | cutting at the last fence and trimming the end leaves a prefix of the text |
| `Fence.StripFence` | src/main.rs:460-470 | the corrected clean-up: the reply is unchanged unless its left-trimmed form starts with three backticks, and the result is never longer than the reply |
| `Fence.LastFence` | src/main.rs:467 | the last fence of `a + "```" + b` is the one after `a` when `b` has no backtick |
| `Fence.FirstNewlineOfFenced` | src/main.rs:463 | in a fenced reply, the first line feed ends the opening fence line |
| `Fence.FenceNewline` | src/main.rs:463 | in a text that opens with a fence, the first line feed lies after the fence |
| `Fence.SplitFenced` | src/main.rs:460 | a text that opens and closes with a fence, with a line feed in between, is a fenced body |
| `Fence.TrimWrapped` | src/main.rs:461 | trimming a wrapped reply leaves exactly the fenced part |
| `Fence.StripFenceWrapped` | src/main.rs:460-470 | a wrapped reply comes out as its body, end-trimmed |
| `Fence.ChangedShape` | src/main.rs:460-470 | a reply that the corrected clean-up changes, trimmed, opens and closes with a fence and has its first line feed in between |
| `Fence.StripFenceOnlyWrapped` | src/main.rs:460-470 | conversely, a reply that the corrected clean-up changes is a wrapped reply, and the result is its body, end-trimmed |
| `Fence.FenceFirstParts` | src/main.rs:461-464 | for a reply that opens with a fence line, the first line feed ends that line |
| `Fence.FenceFirstLeft` | src/main.rs:461 | a reply that opens with a fence is unchanged by `trim_start` |
| `Fence.AsWrittenAgreesOnWrapped` | src/main.rs:461-470 | on a reply that opens with its fence, the written and the corrected clean-up agree |
| `Fence.AsWrittenDropsProse` | src/main.rs:461-470 | a reply that only starts with a code block loses the prose after the block as written, and is kept by the corrected clean-up |
| `Fence.ProseNotFenced` | src/main.rs:460-470 | a reply ending in prose without backticks is kept by the corrected clean-up |
| `Fence.TrimEndKeepsPrefix` | src/main.rs:468 | `trim_end` keeps a prefix that ends in a non-whitespace character |
| `Fence.OpenerAfterNewline` | src/main.rs:461-464 | a reply with a line feed before its fence: the layout the clean-up sees |
| `Fence.AsWrittenKeepsOpener` | src/main.rs:461-470 | a reply with a line feed before its fence keeps its opening fence line as written, and loses it with the corrected clean-up |
| `Stages.NumPages` | src/main.rs:294 | the page count is the limit when one is given and smaller, and the total otherwise |
| `Stages.ExtractPdf` | src/main.rs:283-343 | the stage fails exactly when the document cannot be opened. Otherwise there is one outcome per page. A page is found exactly when its image exists, and fails exactly when it is missing and its rendering fails |
| `Stages.ExtractResumes` | src/main.rs:311-318 | a rerun finds every page the first run found or rendered, and after a run without failures it renders nothing |
| `Stages.ExtractNamesDistinct` | src/main.rs:312 | distinct pages are written to distinct files |
| `Stages.CandidateNames` | src/main.rs:361-371 | every name taken ends in `.png` and does not start with `._`, and every such file is taken |
| `Stages.CandidateNamesAppend` | src/main.rs:361-371 | the candidates of two listings together are the candidates of each, in order |
| `Stages.CandidateNamesOne` | src/main.rs:361-371 | a single entry is taken exactly when it is a file ending in `.png` that does not start with `._` |
| `Stages.Candidates` | src/main.rs:373-375 | the selection is the first `min(limit, count)` candidates in walk order |
| `Stages.TranscribeOne` | src/main.rs:396-477 | a task is skipped exactly when its transcript exists, fails exactly when it is not skipped and the service gives no reply, and otherwise writes the reply, cleaned as the program does, under the transcript name; the text written is a contiguous part of the reply |
| `Stages.TranscribeDropsProse` | src/main.rs:461-477 | a reply made of a code block followed by prose is written as the end-trimmed code alone, although the corrected clean-up keeps that reply whole |
| `Stages.FailureCount` | src/main.rs:489-502 | the count is zero exactly when no task failed |
| `Stages.FailureCountIsSize` | src/main.rs:489-502 | the count is the number of failed tasks |
| `Stages.TranscribeStage` | src/main.rs:345-509 | the stage fails only when the directory walk fails, never because tasks fail. It runs one task per selected image, outcome `k` being the task for selected image `k`, and reports the number of failed tasks |
| `Stages.TranscribeResumes` | src/main.rs:400-403 | a rerun skips every image the first run transcribed or skipped, so at most the same number of tasks fail |
| `Stages.FailuresShrink` | src/main.rs:489-502 | when every task that did not fail the first time is skipped the second time, no more tasks fail |
| `Stages.PngStem` | src/main.rs:396 | the stem of a `.png` name, other than `.png` itself, is the name without the extension |
| `Stages.PngFromTranscriptName` | src/main.rs:396-397 | the image name can be read back from its transcript name |
| `Stages.TranscriptNamesDistinct` | src/main.rs:396-397 | two different image names in one directory, neither of them `.png`, never share a transcript |
| `Stages.DotPngCollision` | src/main.rs:396-397 | the candidates `.png` and `.png.png` share the transcript `.png.md` |

## Left out

- I/O is not modelled. This covers directory creation, `WalkDir`, `exists()`, `read_to_string`, the temp-file write and `persist`, and `std::fs::write`. Listings, contents and existing-file sets are parameters.
- Errors of these calls are mostly not modelled. Two are: a failed walk of the transcription input fails the stage, and a failed task is any task without a reply.
- `Combine.CombineBook`: does not model the I/O errors that end `combine_book` early: a failed walk entry (`entry?` at src/main.rs:167 and src/main.rs:197), a transcript that is not valid UTF-8 (`read_to_string` at src/main.rs:233), and a failed write of the book (src/main.rs:277).
- `Stages.ExtractPdf`: does not model a failed `create_dir_all` of the output directory (src/main.rs:285), which also fails the stage.
- `Stages.TranscribeStage`: does not model a failed `create_dir_all` of the output directory (src/main.rs:354), which also fails the stage.
- Rendering is not modelled: MuPDF and the `dpi / 72` `f32` scale. Rendering is the set of page indices whose rendering fails.
- The network is not modelled: the HTTP request, base64, JSON (serde) and the API error variants. The service is a map from image name to reply; a missing entry stands for any failure, including a reply without content.
- Concurrency is not modelled: rayon, tokio tasks, the semaphore and `join_all`. A concurrency of 0 would make the stage wait forever and is not modelled either.
- Each task checks for its transcript against the directory as it was when the run started. The race between two tasks that write the same transcript is not modelled.
- The walk in `transcribe_images` recurses into subdirectories. Images with the same file name in different subdirectories map to the same transcript. The listing is taken as given, in walk order. `Stages.TranscriptNamesDistinct` is stated for names in one directory only.
- `Stages.TranscriptNamesDistinct`: excludes the name `.png`. Its stem is the whole name, so `.png` and `.png.png` both map to `.png.md` (`Stages.DotPngCollision`). The program then writes one transcript for both. Which one depends on timing: the task that checks second either skips its image or overwrites the first transcript.
- File names that are not valid UTF-8 are skipped by the source and absent from the model.
- Not modelled: the CLI (clap), environment variables, progress bars, deriving default paths, and the prompt text. The output path is reduced to its file name; the title is that name's stem with `_` shown as a space, and empty when the path has no file name.
- `Headers.Lowercase`: uses an ASCII approximation of Unicode `to_lowercase`, which is exact for ASCII titles.
- `Headers.KeepSlugChars`: uses an ASCII approximation of `char::is_alphanumeric`, which is exact for ASCII titles.
- `Numbers.ParseUsize`: assumes a 64-bit `usize`.
- Slugs are not globally unique: only the base slugs are counted. `Headers.CountersCanCollide` shows two headers that get the same slug. Only the per-base counter behaviour is proved.
- `Combine.SortedUniqueAscending`: the anchors are strictly ascending only when no two transcripts share a page number. `page_1.md` and `page_0001.md` are both kept, both as page 1, in listing order.

## Findings

| source | as written | input that shows it | evidently intended | confidence | as-written member | corrected member |
|---|---|---|---|---|---|---|
| src/main.rs:461-470 | cuts the reply at its last fence whenever the left-trimmed reply starts with a fence | a reply that opens with a code block followed by prose, e.g. "```pascal\nx := 1;\n```\nThe assignment above…" loses "The assignment above…" | strip a fence only when it wraps the whole reply; otherwise keep the reply | medium, not executed | `Fence.AsWrittenDropsProse` (`Fence.StripFenceAsWritten`), and `Stages.TranscribeDropsProse` for the task | `Fence.StripFence`, with `Fence.StripFenceWrapped` and `Fence.StripFenceOnlyWrapped` |
| src/main.rs:461-464 | tests the left-trimmed reply for a fence, but searches the untrimmed reply for the first line feed | "\n```markdown\n# Title\n```" comes out as "```markdown\n# Title" | drop the opening fence line of the trimmed reply | high, not executed | `Fence.AsWrittenKeepsOpener` (`Fence.StripFenceAsWritten`) | `Fence.StripFence`, with `Fence.StripFenceWrapped` |

The transcription stage in the model (`Stages.TranscribeOne`) cleans replies as written, with `Fence.StripFenceAsWritten`, as the program does. `Stages.TranscribeDropsProse` shows the first finding at the level of a task. The corrected clean-up is `Fence.StripFence`, with its properties proved.

=== FILE: combine.dfy ===
/**
 * The combine stage (`combine_book`) as a function from directory listings to
 * the book it writes: pick the `page_<n>.md` transcripts, sort them by page
 * number, check their count against the extracted page images, then build the
 * table of contents from the header lines and append every page behind an
 * anchor.
 */
module Combine {
  import opened Wrappers
  import opened Text
  import opened Numbers
  import opened PageNames
  import opened ImageStrip
  import opened Headers
  import opened PageSort

  /** One entry of a directory listing one level deep: its file name, whether it
      is a regular file, and the text `read_to_string` returns for it. */
  datatype Entry = Entry(name: string, isFile: bool, content: string)

  /** The completeness check failed: the transcript count and the page-image count. */
  datatype CombineError = Mismatch(markdownFiles: nat, images: nat)

  /** What a successful run produces: nothing (no transcripts were found), or the
      pages in the order they are written together with the document text. */
  datatype Combined = NothingFound | Written(pages: seq<PageFile>, text: string)

  /** A header line found on a page: the number of `#`, the trimmed title and the
      page number. */
  datatype Heading = Heading(level: nat, title: string, page: nat)

  /** A listing entry that the combine stage keeps: a file named `page_<n>.md`
      whose middle parses as a `usize`. */
  predicate IsTranscript(e: Entry)
  {
    e.isFile && ParsePageNumber(e.name).Some?
  }

  /** The transcripts of a listing, in listing order, with their page numbers. */
  function KeptFiles(listing: seq<Entry>): (r: seq<PageFile>)
    ensures |r| <= |listing|
    ensures r == [] <==> forall e :: e in listing ==> !IsTranscript(e)
  {
    if listing == [] then []
    else
      var e := listing[0];
      assert listing == [e] + listing[1..];
      (if IsTranscript(e) then [PageFile(ParsePageNumber(e.name).value, e.name, e.content)] else [])
        + KeptFiles(listing[1..])
  }

  /** Files are kept entry by entry: the kept files of a split listing are those
      of its first part followed by those of its second, in listing order. */
  lemma {:induction false} KeptFilesAppend(a: seq<Entry>, b: seq<Entry>)
    ensures KeptFiles(a + b) == KeptFiles(a) + KeptFiles(b)
  {
    if a == [] {
      assert a + b == b;
    } else {
      var e := a[0];
      var h := if IsTranscript(e) then [PageFile(ParsePageNumber(e.name).value, e.name, e.content)] else [];
      assert (a + b)[0] == e;
      assert (a + b)[1..] == a[1..] + b;
      assert KeptFiles(a) == h + KeptFiles(a[1..]);
      assert KeptFiles(a + b) == h + KeptFiles(a[1..] + b);
      KeptFilesAppend(a[1..], b);
      AppendAssoc(h, KeptFiles(a[1..]), KeptFiles(b));
    }
  }

  /** A file is kept exactly when its entry is a transcript, with the number parsed
      from its name and its content unchanged. */
  lemma {:induction false} KeptFilesMembers(listing: seq<Entry>)
    ensures forall n: nat, name, content :: PageFile(n, name, content) in KeptFiles(listing)
              <==> Entry(name, true, content) in listing && ParsePageNumber(name) == Some(n)
  {
    if listing != [] {
      KeptFilesMembers(listing[1..]);
      assert listing == [listing[0]] + listing[1..];
    }
  }

  /** On a listing of transcripts only, every entry is kept, in place. */
  lemma {:induction false} KeptFilesAll(listing: seq<Entry>)
    requires forall k :: 0 <= k < |listing| ==> IsTranscript(listing[k])
    ensures |KeptFiles(listing)| == |listing|
    ensures forall k :: 0 <= k < |listing| ==>
              KeptFiles(listing)[k]
                == PageFile(ParsePageNumber(listing[k].name).value, listing[k].name, listing[k].content)
  {
    if listing != [] {
      KeptFilesAll(listing[1..]);
    }
  }

  /** An entry the completeness check counts: a file named `page_*.png`. */
  predicate IsPageImageFile(e: Entry)
  {
    e.isFile && IsPageImage(e.name)
  }

  /** The number of page images in the images listing: files named `page_*.png`. */
  function ImageCount(listing: seq<Entry>): (n: nat)
    ensures n <= |listing|
    ensures n == 0 <==> forall e :: e in listing ==> !IsPageImageFile(e)
  {
    if listing == [] then 0
    else
      assert listing == [listing[0]] + listing[1..];
      (if IsPageImageFile(listing[0]) then 1 else 0) + ImageCount(listing[1..])
  }

  lemma {:induction false} ImageCountAppend(a: seq<Entry>, b: seq<Entry>)
    ensures ImageCount(a + b) == ImageCount(a) + ImageCount(b)
  {
    if a == [] {
      assert a + b == b;
    } else {
      assert (a + b)[0] == a[0];
      assert (a + b)[1..] == a[1..] + b;
      ImageCountAppend(a[1..], b);
    }
  }

  /** The indices of the page-image files of a listing. */
  function ImageIndices(listing: seq<Entry>): set<nat>
  {
    set k: nat | k < |listing| && IsPageImageFile(listing[k])
  }

  lemma ImageIndicesSnoc(init: seq<Entry>, last: Entry)
    ensures ImageIndices(init + [last])
              == ImageIndices(init) + (if IsPageImageFile(last) then {|init|} else {})
  {
    var listing := init + [last];
    forall k: nat | k < |init|
      ensures listing[k] == init[k]
    {
    }
    assert listing[|init|] == last;
  }

  /** The count is exact: one per page-image file of the listing. */
  lemma {:induction false} ImageCountIsSize(listing: seq<Entry>)
    ensures ImageCount(listing) == |ImageIndices(listing)|
  {
    if listing != [] {
      var m := |listing| - 1;
      var init := listing[..m];
      var last := listing[m];
      assert listing == init + [last];
      ImageCountIsSize(init);
      ImageCountAppend(init, [last]);
      assert ImageCount([last]) == (if IsPageImageFile(last) then 1 else 0) by {
        assert [last][1..] == [];
      }
      ImageIndicesSnoc(init, last);
      assert |init| !in ImageIndices(init);
    }
  }

  /** On a listing of page images only, every entry is counted. */
  lemma {:induction false} ImageCountAll(listing: seq<Entry>)
    requires forall k :: 0 <= k < |listing| ==> listing[k].isFile && IsPageImage(listing[k].name)
    ensures ImageCount(listing) == |listing|
  {
    if listing != [] {
      ImageCountAll(listing[1..]);
    }
  }

  /** The page text the book uses: image links stripped, then trimmed. */
  function CleanPage(content: string): string
  {
    Trim(StripImages(content))
  }

  /** Every entry is a real header level and points at `page`. */
  predicate OnPage(hs: seq<Heading>, page: nat)
  {
    forall k :: 0 <= k < |hs| ==> hs[k].level >= 1 && hs[k].page == page
  }

  /** The ToC entry a single line yields, if any. */
  function LineHeading(line: string, page: nat): (r: seq<Heading>)
    ensures |r| <= 1 && OnPage(r, page)
  {
    match ParseHeader(line)
    case Some(h) => [Heading(h.level, Trim(h.text), page)]
    case None => []
  }

  /** The headers among the lines of one page, in order. */
  function HeadingsOf(lines: seq<string>, page: nat): (r: seq<Heading>)
    ensures |r| <= |lines| && OnPage(r, page)
  {
    if lines == [] then [] else LineHeading(lines[0], page) + HeadingsOf(lines[1..], page)
  }

  lemma {:induction false} HeadingsOfAppend(a: seq<string>, b: seq<string>, page: nat)
    ensures HeadingsOf(a + b, page) == HeadingsOf(a, page) + HeadingsOf(b, page)
  {
    if a == [] {
      assert a + b == b;
    } else {
      assert (a + b)[0] == a[0];
      assert (a + b)[1..] == a[1..] + b;
      HeadingsOfAppend(a[1..], b, page);
      AppendAssoc(LineHeading(a[0], page), HeadingsOf(a[1..], page), HeadingsOf(b, page));
    }
  }

  /** A line yields a ToC entry exactly when it has the shape `#+`, whitespace,
      text; the entry's level is the number of leading `#` and its title is the
      rest of the line, trimmed. */
  lemma HeadingOfLine(line: string, page: nat)
    ensures LineHeading(line, page) != [] <==> exists h: nat, w: nat :: HeaderShape(line, h, w)
    ensures LineHeading(line, page) != [] ==>
              var level := LeadingCount(line, '#');
              LineHeading(line, page) == [Heading(level, Trim(line[level..]), page)]
  {
    if ParseHeader(line).Some? {
      ParseHeaderSound(line);
      HeadingTitle(line, page);
    }
    if exists h: nat, w: nat :: HeaderShape(line, h, w) {
      var h: nat, w: nat :| HeaderShape(line, h, w);
      ParseHeaderComplete(line, h, w);
    }
  }

  lemma HeadingTitle(line: string, page: nat)
    requires ParseHeader(line).Some?
    ensures var level := LeadingCount(line, '#');
            LineHeading(line, page) == [Heading(level, Trim(line[level..]), page)]
  {
    var m := ParseHeader(line).value;
    ParseHeaderSound(line);
    assert m.level == LeadingCount(line, '#');
    HeaderTitle(line, m.level, |line| - m.level - |m.text|, m.text);
  }

  /** The captured title, trimmed, is the rest of the line after the `#` run, trimmed:
      the text after the whitespace run, or one whitespace character given back. */
  lemma HeaderTitle(line: string, level: nat, w: nat, text: string)
    requires level + w + |text| == |line| && text == line[level + w..]
    requires forall k :: level <= k < level + w ==> IsWhitespace(line[k])
    ensures Trim(text) == Trim(line[level..])
  {
    var ws := line[level..level + w];
    assert line[level..] == ws + text;
    assert AllWhitespace(ws) by {
      forall k | 0 <= k < |ws| ensures IsWhitespace(ws[k]) {
        assert ws[k] == line[level + k];
      }
    }
    TrimStartSkipsWhitespace(ws, text);
  }

  /** Every page of the book is written as an anchor, the page text and a rule. */
  function Anchor(n: nat): string
  {
    "\n<a id='page_" + Decimal(n) + "'></a>\n"
  }

  const Rule: string := "\n\n---\n\n"

  function PageBlock(p: PageFile): string
  {
    Anchor(p.number) + CleanPage(p.content) + Rule
  }

  /** The page blocks of the book, in page order. */
  function Blocks(pages: seq<PageFile>): (r: seq<string>)
    ensures |r| == |pages| && forall k :: 0 <= k < |pages| ==> r[k] == PageBlock(pages[k])
  {
    seq(|pages|, k requires 0 <= k < |pages| => PageBlock(pages[k]))
  }

  function Body(pages: seq<PageFile>): string
  {
    Concat(Blocks(pages))
  }

  /** The body is the blocks of the pages before `i`, the block of page `i`, and the
      blocks of the pages after it. */
  lemma BodySplit(pages: seq<PageFile>, i: nat)
    requires i < |pages|
    ensures Body(pages) == Body(pages[..i]) + PageBlock(pages[i]) + Body(pages[i + 1..])
  {
    var blocks := Blocks(pages);
    assert blocks[..i] == Blocks(pages[..i]);
    assert blocks[i + 1..] == Blocks(pages[i + 1..]);
    calc {
      Body(pages);
      Concat(blocks);
      { ConcatSplit(blocks, i); }
      Concat(blocks[..i]) + blocks[i] + Concat(blocks[i + 1..]);
      Body(pages[..i]) + PageBlock(pages[i]) + Body(pages[i + 1..]);
    }
  }

  /** The headers of one page, read from its cleaned text. */
  function PageHeadings(p: PageFile): seq<Heading>
  {
    HeadingsOf(Lines(CleanPage(p.content)), p.number)
  }

  /** The headers of the whole book, page after page. */
  function AllHeadings(pages: seq<PageFile>): seq<Heading>
  {
    if pages == [] then [] else PageHeadings(pages[0]) + AllHeadings(pages[1..])
  }

  function Bases(hs: seq<Heading>): (r: seq<string>)
    ensures |r| == |hs| && forall k :: 0 <= k < |hs| ==> r[k] == SlugBase(hs[k].title)
  {
    seq(|hs|, k requires 0 <= k < |hs| => SlugBase(hs[k].title))
  }

  /** The ToC: one line per header of the book, slugs numbered across all pages. */
  function Toc(pages: seq<PageFile>): (r: seq<string>)
    ensures |r| == |AllHeadings(pages)|
  {
    var hs := AllHeadings(pages);
    var slugs := AssignSlugs(Bases(hs), map[]).0;
    seq(|hs|, k requires 0 <= k < |hs| => TocLine(hs[k].level, hs[k].title, slugs[k], hs[k].page))
  }

  /** ToC line `i` links header `i` of the book; its slug is the header's base slug
      when no earlier header in the book has the same base, and `base-k` when `k`
      earlier headers have it. */
  lemma TocEntries(pages: seq<PageFile>)
    ensures forall i :: 0 <= i < |Toc(pages)| ==>
              var h := AllHeadings(pages)[i];
              var bases := Bases(AllHeadings(pages));
              Toc(pages)[i] == TocLine(h.level, h.title,
                                       Disambiguated(bases[i], multiset(bases[..i])[bases[i]]), h.page)
  {
    var hs := AllHeadings(pages);
    var bases := Bases(hs);
    forall i | 0 <= i < |Toc(pages)|
      ensures Toc(pages)[i] == TocLine(hs[i].level, hs[i].title,
                                       Disambiguated(bases[i], multiset(bases[..i])[bases[i]]), hs[i].page)
    {
      AssignSlugsAt(bases, map[], i);
      assert Recorded(map[], bases[i]) == 0;
    }
  }

  /** The book title: the output file's stem with `_` shown as a space; empty when
      the output path has no file name. */
  function BookTitle(outputName: Option<string>): (r: string)
    ensures outputName.None? ==> r == []
    ensures outputName.Some? ==> |r| <= |outputName.value|
    ensures '_' !in r
  {
    match outputName
    case None => []
    case Some(name) => ReplaceChar(FileStem(name), '_', ' ')
  }

  /** The title of `a.b` is `a` with `_` shown as a space; the extension goes. */
  lemma BookTitleOfName(a: string, b: string)
    requires a != [] && '.' !in b
    requires !(a == "." && b == [])
    ensures BookTitle(Some(a + "." + b)) == ReplaceChar(a, '_', ' ')
  {
    FileStemLastDot(a, b);
  }

  /** A name without a `.` gives its whole self as the title, with `_` shown as a
      space. */
  lemma BookTitleNoDot(name: string)
    requires '.' !in name
    ensures BookTitle(Some(name)) == ReplaceChar(name, '_', ' ')
  {
    FileStemNoDot(name);
  }

  /** The document: the title line, the ToC heading and lines, a rule, the body. */
  function Document(outputName: Option<string>, pages: seq<PageFile>): (r: string)
    ensures StartsWith(r, "# " + BookTitle(outputName) + "\n")
    ensures EndsWith(r, Body(pages))
  {
    var head := "# " + BookTitle(outputName) + "\n";
    var toc := "\n## Table of Contents\n\n" + Join(Toc(pages), "\n") + Rule;
    var body := Body(pages);
    OpensAndCloses(head, toc, body);
    head + toc + body
  }

  /** `combine_book`: `markdown` is the listing of the input directory, `images`
      the listing of the sibling `images` directory when it exists, and
      `outputName` the output path's file name. */
  function CombineBook(markdown: seq<Entry>, images: Option<seq<Entry>>, outputName: Option<string>)
    : (r: Result<Combined, CombineError>)
    ensures r == Success(NothingFound) <==> forall e :: e in markdown ==> !IsTranscript(e)
    ensures r.Failure? <==>
              (exists e :: e in markdown && IsTranscript(e))
              && images.Some? && |KeptFiles(markdown)| != ImageCount(images.value)
    ensures r.Failure? ==> r.error == Mismatch(|KeptFiles(markdown)|, ImageCount(images.value))
    ensures r.Success? && r.value.Written? ==>
              && Sorted(r.value.pages)
              && multiset(r.value.pages) == multiset(KeptFiles(markdown))
              && r.value.text == Document(outputName, r.value.pages)
  {
    var kept := KeptFiles(markdown);
    var files := SortByNumber(kept);
    SortByNumberPermutes(kept);
    SortByNumberSorted(kept);
    if files == [] then Success(NothingFound)
    else if images.Some? && |files| != ImageCount(images.value) then
      Failure(Mismatch(|files|, ImageCount(images.value)))
    else Success(Written(files, Document(outputName, files)))
  }

  /** Pages with the same number keep the order of the listing. */
  lemma WrittenStable(markdown: seq<Entry>, images: Option<seq<Entry>>, outputName: Option<string>, k: nat)
    requires CombineBook(markdown, images, outputName).Success?
    requires CombineBook(markdown, images, outputName).value.Written?
    ensures WithNumber(CombineBook(markdown, images, outputName).value.pages, k)
              == WithNumber(KeptFiles(markdown), k)
  {
    SortByNumberStable(KeptFiles(markdown), k);
  }

  /** When no two transcripts share a page number, the anchors are strictly
      ascending. */
  lemma {:induction false} SortedUniqueAscending(s: seq<PageFile>)
    requires Sorted(s)
    requires forall k :: |WithNumber(s, k)| <= 1
    ensures forall i, j :: 0 <= i < j < |s| ==> s[i].number < s[j].number
  {
    forall i, j | 0 <= i < j < |s|
      ensures s[i].number < s[j].number
    {
      if s[i].number == s[j].number {
        TwoWithNumber(s, i, j);
      }
    }
  }

  lemma {:induction false} TwoWithNumber(s: seq<PageFile>, i: nat, j: nat)
    requires i < j < |s| && s[i].number == s[j].number
    ensures |WithNumber(s, s[i].number)| >= 2
  {
    var k := s[i].number;
    if i == 0 {
      OneWithNumber(s[1..], j - 1, k);
    } else {
      TwoWithNumber(s[1..], i - 1, j - 1);
    }
  }

  lemma {:induction false} OneWithNumber(s: seq<PageFile>, j: nat, k: nat)
    requires j < |s| && s[j].number == k
    ensures |WithNumber(s, k)| >= 1
  {
    if j > 0 {
      OneWithNumber(s[1..], j - 1, k);
    }
  }

  /** The transcript listing that transcribing every extracted page produces. */
  function TranscriptListing(contents: seq<string>): (r: seq<Entry>)
    ensures |r| == |contents|
  {
    seq(|contents|, i requires 0 <= i < |contents| => Entry(TranscriptName(PageImageName(i)), true, contents[i]))
  }

  /** The images listing that extracting `n` pages produces. */
  function ImageListing(n: nat): (r: seq<Entry>)
    ensures |r| == n
  {
    seq(n, i requires 0 <= i < n => Entry(PageImageName(i), true, []))
  }

  /** Every transcript of a complete run is kept, with the page number its name
      carries. */
  lemma KeptTranscripts(contents: seq<string>)
    requires |contents| <= USIZE_MAX
    ensures |KeptFiles(TranscriptListing(contents))| == |contents|
    ensures forall i :: 0 <= i < |contents| ==>
              KeptFiles(TranscriptListing(contents))[i].number == i + 1
              && KeptFiles(TranscriptListing(contents))[i].content == contents[i]
  {
    var listing := TranscriptListing(contents);
    forall k | 0 <= k < |contents|
      ensures ParsePageNumber(listing[k].name) == Some(k + 1)
    {
      NameRoundTrip(k);
    }
    KeptFilesAll(listing);
  }

  lemma CountImages(n: nat)
    requires n <= USIZE_MAX
    ensures ImageCount(ImageListing(n)) == n
  {
    forall k | 0 <= k < n
      ensures ImageListing(n)[k].isFile && IsPageImage(ImageListing(n)[k].name)
    {
      PageImageNameProperties(k, k);
    }
    ImageCountAll(ImageListing(n));
  }

  /** After extracting `n` pages and transcribing all of them, the completeness
      check passes and the book holds pages `1..n` in order, each with its own
      transcript. */
  lemma CompleteBook(contents: seq<string>, outputName: Option<string>)
    requires 1 <= |contents| <= USIZE_MAX
    ensures var r := CombineBook(TranscriptListing(contents), Some(ImageListing(|contents|)), outputName);
            && r.Success? && r.value.Written?
            && |r.value.pages| == |contents|
            && forall i :: 0 <= i < |contents| ==>
                 r.value.pages[i].number == i + 1 && r.value.pages[i].content == contents[i]
  {
    var kept := KeptFiles(TranscriptListing(contents));
    KeptTranscripts(contents);
    CountImages(|contents|);
    assert Sorted(kept);
    SortByNumberOfSorted(kept);
  }
}

=== FILE: fence.dfy ===
/**
 * Clean-up of a transcription reply that the model wrapped in a Markdown code
 * fence. `StripFenceAsWritten` is the clean-up as the transcription stage performs
 * it; `StripFence` is the clean-up it evidently intends (strip a fence only when
 * it wraps the whole reply). The stages use `StripFenceAsWritten`, and
 * `StripFence` appears only in the lemmas that contrast the two.
 */
module Fence {
  import opened Wrappers
  import opened Text

  const Backticks: string := "```"

  /** `s` occurs in `text` as a contiguous part. */
  ghost predicate IsInfix(s: string, text: string)
  {
    exists a: nat :: a <= |text| && StartsWith(text[a..], s)
  }

  /** The reply after its first line feed; all of it when it has none. */
  function AfterFirstLine(text: string): (r: string)
    ensures |r| <= |text| && r == text[|text| - |r|..]
  {
    match FindChar(text, '\n')
    case Some(p) => text[p + 1..]
    case None => text
  }

  /** The text before its last fence, end-trimmed; all of it when it has no fence. */
  function BeforeLastFence(t: string): (r: string)
    ensures StartsWith(t, r)
  {
    match RFind(t, Backticks)
    case Some(q) => TrimEnd(t[..q])
    case None => t
  }

  /** The clean-up as written: when the left-trimmed reply starts with a fence, drop
      the reply up to and including its first line feed (searched in the untrimmed
      reply), then cut at the last fence left and trim the end. */
  function StripFenceAsWritten(text: string): (r: string)
    ensures !StartsWith(TrimStart(text), Backticks) ==> r == text
    ensures |r| <= |text|
    ensures IsInfix(r, text)
  {
    if StartsWith(TrimStart(text), Backticks) then
      var t1 := AfterFirstLine(text);
      var r := BeforeLastFence(t1);
      assert StartsWith(text[|text| - |t1|..], r);
      r
    else
      assert StartsWith(text[0..], text);
      text
  }

  /** What lies between the opening fence line and the closing fence of a text that
      has both, end-trimmed. */
  function FenceInner(t: string): (r: Option<string>)
    ensures r.Some? ==> |r.value| <= |t| && StartsWith(t, Backticks)
  {
    if StartsWith(t, Backticks) && EndsWith(t, Backticks) then
      match FindChar(t, '\n')
      case Some(p) => if p + 1 <= |t| - 3 then Some(TrimEnd(t[p + 1..|t| - 3])) else None
      case None => None
    else None
  }

  lemma PrefixStartsWith(u: string, t: string, pre: string)
    requires |t| <= |u| && t == u[..|t|] && StartsWith(t, pre)
    ensures StartsWith(u, pre)
  {
    assert u[..|pre|] == t[..|pre|];
  }

  /** The clean-up as intended: when the trimmed reply opens with a fence line and
      closes with a fence, return what lies between them, end-trimmed; any other
      reply is kept as it is. */
  function StripFence(text: string): (r: string)
    ensures !StartsWith(TrimStart(text), Backticks) ==> r == text
    ensures |r| <= |text|
  {
    match FenceInner(Trim(text))
    case Some(inner) =>
      PrefixStartsWith(TrimStart(text), Trim(text), Backticks);
      inner
    case None => text
  }

  /** A reply made of an opening fence line (with an optional info string), a body
      and a closing fence, padded with whitespace. */
  function Wrapped(ws1: string, info: string, body: string, ws2: string): string
  {
    ws1 + Backticks + info + "\n" + body + Backticks + ws2
  }

  /** `text` is the wrapped reply with these parts: whitespace padding, an info
      string without a line feed, and a body. */
  ghost predicate IsWrapping(text: string, ws1: string, info: string, body: string, ws2: string)
  {
    AllWhitespace(ws1) && AllWhitespace(ws2) && '\n' !in info
    && text == Wrapped(ws1, info, body, ws2)
  }

  /** The fenced part of a wrapped reply, before padding. */
  function Fenced(info: string, body: string): string
  {
    Backticks + info + "\n" + body + Backticks
  }

  /** `rfind` of a fence: in `a + Backticks + b` with no backtick in `b`, the last
      fence is the one after `a`. */
  lemma LastFence(a: string, b: string)
    requires '`' !in b
    ensures RFind(a + Backticks + b, Backticks) == Some(|a|)
  {
    var s := a + Backticks + b;
    assert s[|a|..|a| + 3] == Backticks;
    assert OccursAt(s, |a|, Backticks);
    forall k | |a| < k
      ensures !OccursAt(s, k, Backticks)
    {
      if k + 3 <= |s| {
        assert s[k + 2] == b[k + 2 - |a| - 3];
        assert b[k + 2 - |a| - 3] in b;
        assert s[k..k + 3][2] == s[k + 2];
      }
    }
  }

  lemma FirstNewlineOfFenced(info: string, body: string)
    requires '\n' !in info
    ensures FindChar(Fenced(info, body), '\n') == Some(3 + |info|)
  {
    assert Fenced(info, body) == (Backticks + info) + ['\n'] + (body + Backticks);
    assert '\n' !in Backticks + info;
    FindCharAfter(Backticks + info, '\n', body + Backticks);
  }

  /** The three steps of the written clean-up when a first line feed and a later
      fence both exist. */
  lemma AsWrittenSteps(text: string, p: nat, q: nat)
    requires StartsWith(TrimStart(text), Backticks)
    requires FindChar(text, '\n') == Some(p)
    requires RFind(text[p + 1..], Backticks) == Some(q)
    ensures StripFenceAsWritten(text) == TrimEnd(text[p + 1..][..q])
  {
    var t1 := AfterFirstLine(text);
    assert t1 == text[p + 1..];
    assert BeforeLastFence(t1) == TrimEnd(t1[..q]);
  }

  /** In a text that opens with a fence, the first line feed lies after the fence,
      and the info string before it has none. */
  lemma FenceNewline(t: string, p: nat)
    requires StartsWith(t, Backticks) && EndsWith(t, Backticks)
    requires FindChar(t, '\n') == Some(p) && p + 1 <= |t| - 3
    ensures 3 <= p && '\n' !in t[3..p]
  {
    assert t[3..p] == t[..p][3..];
  }

  /** A text that opens and closes with a fence and has a line feed in between is a
      fenced body. */
  lemma SplitFenced(t: string, p: nat)
    requires StartsWith(t, Backticks) && EndsWith(t, Backticks)
    requires 3 <= p && p + 1 <= |t| - 3 && t[p] == '\n'
    ensures t == Fenced(t[3..p], t[p + 1..|t| - 3])
  {
    assert t == t[..3] + t[3..p] + [t[p]] + t[p + 1..|t| - 3] + t[|t| - 3..];
  }

  lemma TrimWrapped(ws1: string, info: string, body: string, ws2: string)
    requires AllWhitespace(ws1) && AllWhitespace(ws2)
    ensures Trim(Wrapped(ws1, info, body, ws2)) == Fenced(info, body)
  {
    var m := Fenced(info, body);
    assert Wrapped(ws1, info, body, ws2) == ws1 + (m + ws2);
    assert (m + ws2)[0] == '`';
    TrimStartPadded(ws1, m + ws2);
    assert m[|m| - 1] == '`';
    TrimEndPadded(m, ws2);
  }

  /** A wrapped reply loses exactly its fences and padding, and the body's trailing
      whitespace. */
  lemma {:induction false} StripFenceWrapped(ws1: string, info: string, body: string, ws2: string)
    requires AllWhitespace(ws1) && AllWhitespace(ws2)
    requires '\n' !in info
    ensures StripFence(Wrapped(ws1, info, body, ws2)) == TrimEnd(body)
  {
    var m := Fenced(info, body);
    TrimWrapped(ws1, info, body, ws2);
    FenceInnerOfFenced(info, body);
  }

  lemma FenceInnerOfFenced(info: string, body: string)
    requires '\n' !in info
    ensures FenceInner(Fenced(info, body)) == Some(TrimEnd(body))
  {
    var m := Fenced(info, body);
    FirstNewlineOfFenced(info, body);
    assert StartsWith(m, Backticks) && EndsWith(m, Backticks) by {
      assert m[..3] == Backticks;
      assert m[|m| - 3..] == Backticks;
    }
    assert m[3 + |info| + 1..|m| - 3] == body;
  }

  /** The layout `FenceInner` finds in a text it accepts. */
  lemma FenceInnerShape(t: string) returns (p: nat)
    requires FenceInner(t).Some?
    ensures StartsWith(t, Backticks) && EndsWith(t, Backticks)
    ensures FindChar(t, '\n') == Some(p) && p + 1 <= |t| - 3
    ensures FenceInner(t) == Some(TrimEnd(t[p + 1..|t| - 3]))
  {
    p := FindChar(t, '\n').value;
  }

  /** What the intended clean-up finds in a reply that it changes. */
  lemma ChangedShape(text: string) returns (p: nat)
    requires StripFence(text) != text
    ensures StartsWith(Trim(text), Backticks) && EndsWith(Trim(text), Backticks)
    ensures FindChar(Trim(text), '\n') == Some(p) && p + 1 <= |Trim(text)| - 3
    ensures StripFence(text) == TrimEnd(Trim(text)[p + 1..|Trim(text)| - 3])
  {
    var t := Trim(text);
    assert FenceInner(t).Some?;
    p := FenceInnerShape(t);
  }

  lemma PaddedFenced(text: string, ws1: string, t: string, ws2: string, info: string, body: string)
    requires text == ws1 + t + ws2 && t == Fenced(info, body)
    ensures text == Wrapped(ws1, info, body, ws2)
  {
  }

  /** Conversely, a reply that the clean-up changes is a wrapped reply, and the
      result is its body, end-trimmed. */
  lemma {:induction false} StripFenceOnlyWrapped(text: string)
    returns (ws1: string, info: string, body: string, ws2: string)
    requires StripFence(text) != text
    ensures IsWrapping(text, ws1, info, body, ws2) && StripFence(text) == TrimEnd(body)
  {
    var ts := TrimStart(text);
    var t := Trim(text);
    var p := ChangedShape(text);
    FenceNewline(t, p);
    SplitFenced(t, p);
    PaddingSplit(text, ts, t);
    ws1 := text[..|text| - |ts|];
    ws2 := ts[|t|..];
    info := t[3..p];
    body := t[p + 1..|t| - 3];
    PaddedFenced(text, ws1, Fenced(info, body), ws2, info, body);
    assert IsWrapping(text, ws1, info, body, ws2);
    assert StripFence(text) == TrimEnd(body);
  }

  /** The pieces of a reply whose opening fence comes first: its first line feed
      ends the fence line, and what follows is `rest`. */
  lemma FenceFirstParts(text: string, info: string, rest: string)
    requires text == Backticks + info + "\n" + rest
    requires '\n' !in info
    ensures TrimStart(text) == text && StartsWith(text, Backticks)
    ensures FindChar(text, '\n') == Some(3 + |info|)
    ensures text[3 + |info| + 1..] == rest
  {
    var head := Backticks + info;
    assert text == head + ['\n'] + rest;
    FenceFirstLeft(text);
    assert '\n' !in head;
    FindCharAfter(head, '\n', rest);
    assert |head + ['\n']| == 3 + |info| + 1;
  }

  lemma FenceFirstLeft(text: string)
    requires StartsWith(text, Backticks)
    ensures TrimStart(text) == text
  {
    assert text == [] + text;
    assert text[0] == text[..3][0];
    TrimStartPadded([], text);
  }

  lemma NoBacktickInWhitespace(ws: string)
    requires AllWhitespace(ws)
    ensures '`' !in ws
  {
    forall k | 0 <= k < |ws| ensures ws[k] != '`' {
      assert IsWhitespace(ws[k]);
    }
  }

  /** On a wrapped reply whose padding is only trailing, the written clean-up and
      the intended one agree. */
  lemma {:induction false} AsWrittenAgreesOnWrapped(info: string, body: string, ws2: string)
    requires AllWhitespace(ws2)
    requires '\n' !in info
    ensures StripFenceAsWritten(Wrapped([], info, body, ws2)) == TrimEnd(body)
    ensures StripFence(Wrapped([], info, body, ws2)) == TrimEnd(body)
  {
    var text := Wrapped([], info, body, ws2);
    var rest := body + Backticks + ws2;
    assert text == Backticks + info + "\n" + rest;
    assert RFind(rest, Backticks) == Some(|body|) by {
      NoBacktickInWhitespace(ws2);
      LastFence(body, ws2);
    }
    FenceLineFirst(text, info, rest, |body|);
    assert rest[..|body|] == body;
    StripFenceWrapped([], info, body, ws2);
  }

  /** The text of a reply that opens with a code block followed by prose. */
  function CodeThenProse(info: string, code: string, prose: string): string
  {
    Backticks + info + "\n" + code + Backticks + "\n" + prose
  }

  /** Finding: a reply that merely starts with a code block loses everything after
      the block's closing fence, although it is not wrapped in a fence. */
  lemma AsWrittenDropsProse(info: string, code: string, prose: string)
    requires '\n' !in info
    requires '`' !in prose
    requires prose != [] && !IsWhitespace(prose[|prose| - 1])
    ensures StripFenceAsWritten(CodeThenProse(info, code, prose)) == TrimEnd(code)
    ensures StripFence(CodeThenProse(info, code, prose)) == CodeThenProse(info, code, prose)
  {
    AsWrittenCutsAtFence(info, code, prose);
    CodeThenProseKept(info, code, prose);
  }

  lemma CodeThenProseKept(info: string, code: string, prose: string)
    requires '`' !in prose
    requires prose != [] && !IsWhitespace(prose[|prose| - 1])
    ensures StripFence(CodeThenProse(info, code, prose)) == CodeThenProse(info, code, prose)
  {
    var text := CodeThenProse(info, code, prose);
    assert TrimStart(text) == text by {
      assert StartsWith(text, Backticks);
      FenceFirstLeft(text);
    }
    assert EndsWith(text, prose);
    ProseNotFenced(text, prose);
  }

  /** The written clean-up on a reply whose first line is a fence line. */
  lemma FenceLineFirst(text: string, info: string, rest: string, q: nat)
    requires text == Backticks + info + "\n" + rest
    requires '\n' !in info
    requires RFind(rest, Backticks) == Some(q)
    ensures StripFenceAsWritten(text) == TrimEnd(rest[..q])
  {
    FenceFirstParts(text, info, rest);
    AsWrittenSteps(text, 3 + |info|, q);
  }

  lemma AsWrittenCutsAtFence(info: string, code: string, prose: string)
    requires '\n' !in info
    requires '`' !in prose
    ensures StripFenceAsWritten(CodeThenProse(info, code, prose)) == TrimEnd(code)
  {
    var text := CodeThenProse(info, code, prose);
    var rest := code + Backticks + ("\n" + prose);
    assert text == Backticks + info + "\n" + rest;
    assert RFind(rest, Backticks) == Some(|code|) by {
      assert '`' !in "\n" + prose;
      LastFence(code, "\n" + prose);
    }
    FenceLineFirst(text, info, rest, |code|);
    assert rest[..|code|] == code;
  }

  /** A text ending in prose without backticks is not closed by a fence, so the
      intended clean-up keeps it. */
  lemma ProseNotFenced(text: string, prose: string)
    requires EndsWith(text, prose) && TrimStart(text) == text
    requires '`' !in prose
    requires prose != [] && !IsWhitespace(prose[|prose| - 1])
    ensures StripFence(text) == text
  {
    assert text[|text| - 1] == prose[|prose| - 1];
    assert text == text + [];
    TrimEndPadded(text, []);
    assert prose[|prose| - 1] in prose;
    assert !EndsWith(text, Backticks);
  }

  /** `trim_end` keeps a prefix that ends in a non-whitespace character. */
  lemma TrimEndKeepsPrefix(u: string, pre: string)
    requires StartsWith(u, pre) && pre != [] && !IsWhitespace(pre[|pre| - 1])
    ensures StartsWith(TrimEnd(u), pre)
  {
    assert u[|pre| - 1] == u[..|pre|][|pre| - 1];
    assert !IsWhitespace(u[|pre| - 1]);
  }

  lemma OpenerAfterNewline(info: string, body: string, u: string)
    requires u == Backticks + info + "\n" + body
    ensures Wrapped("\n", info, body, []) == [] + ['\n'] + (u + Backticks)
    ensures TrimStart(Wrapped("\n", info, body, [])) == u + Backticks
    ensures StartsWith(u, Backticks)
    ensures Wrapped("\n", info, body, [])[1..] == u + Backticks + []
  {
    assert Wrapped("\n", info, body, []) == "\n" + (u + Backticks);
    assert (u + Backticks)[0] == '`';
    TrimStartPadded("\n", u + Backticks);
  }

  lemma {:induction false} AsWrittenOpener(info: string, body: string)
    requires '\n' !in info
    ensures StartsWith(StripFenceAsWritten(Wrapped("\n", info, body, [])), Backticks)
  {
    var text := Wrapped("\n", info, body, []);
    var u := Backticks + info + "\n" + body;
    OpenerAfterNewline(info, body, u);
    assert StartsWith(TrimStart(text), Backticks) by {
      assert (u + Backticks)[..3] == u[..3];
    }
    assert FindChar(text, '\n') == Some(0) by {
      FindCharAfter([], '\n', u + Backticks);
    }
    assert RFind(text[0 + 1..], Backticks) == Some(|u|) by {
      LastFence(u, []);
    }
    AsWrittenSteps(text, 0, |u|);
    assert text[0 + 1..][..|u|] == u;
    TrimEndKeepsPrefix(u, Backticks);
  }

  /** Finding: when the reply starts with a line feed before its opening fence, the
      first line feed found is that one, so the opening fence line survives. */
  lemma AsWrittenKeepsOpener(info: string, body: string)
    requires '\n' !in info
    ensures StartsWith(StripFenceAsWritten(Wrapped("\n", info, body, [])), Backticks)
    ensures StripFence(Wrapped("\n", info, body, [])) == TrimEnd(body)
  {
    AsWrittenOpener(info, body);
    assert AllWhitespace("\n") && AllWhitespace([]) by {
      assert IsWhitespace("\n"[0]);
    }
    StripFenceWrapped("\n", info, body, []);
  }
}

=== FILE: headers.dfy ===
/**
 * Table-of-contents generation in the combine stage: recognising a Markdown
 * header line with `^(#+)\s+(.+)$`, turning its title into an anchor slug,
 * disambiguating repeated slugs with a document-wide counter per slug, and
 * formatting the ToC line.
 */
module Headers {
  import opened Wrappers
  import opened Text
  import opened Numbers

  /** The two capture groups of the header regex: the length of `(#+)` and the
      text of `(.+)`. */
  datatype HeaderMatch = HeaderMatch(level: nat, text: string)

  /** The number of copies of `c` that `s` starts with. */
  function LeadingCount(s: string, c: char): (n: nat)
    ensures n <= |s|
    ensures forall k :: 0 <= k < n ==> s[k] == c
    ensures n == |s| || s[n] != c
  {
    if s == [] || s[0] != c then 0 else 1 + LeadingCount(s[1..], c)
  }

  /** The length of the run of whitespace in `s` starting at `from`. */
  function WhitespaceRun(s: string, from: nat): (n: nat)
    requires from <= |s|
    decreases |s| - from
    ensures from + n <= |s|
    ensures forall k :: from <= k < from + n ==> IsWhitespace(s[k])
    ensures from + n == |s| || !IsWhitespace(s[from + n])
  {
    if from == |s| || !IsWhitespace(s[from]) then 0 else 1 + WhitespaceRun(s, from + 1)
  }

  /** Matching `^(#+)\s+(.+)$` against a whole line. The greedy `#+` takes every
      leading `#` and the greedy `\s+` every whitespace after them; when nothing is
      left for `.+`, the `\s+` gives its last character back. `.` never matches a
      line feed. */
  function ParseHeader(line: string): (r: Option<HeaderMatch>)
    ensures r.Some? ==> r.value.level >= 1 && r.value.text != []
  {
    var h := LeadingCount(line, '#');
    var w := WhitespaceRun(line, h);
    if h == 0 || w == 0 then None
    else if h + w < |line| then
      if '\n' in line[h + w..] then None else Some(HeaderMatch(h, line[h + w..]))
    else if w >= 2 && line[|line| - 1] != '\n' then Some(HeaderMatch(h, [line[|line| - 1]]))
    else None
  }

  /** `line` splits as `h` hashes, `w` whitespace characters and a non-empty rest
      without line feeds: one way for the header regex to match it. */
  ghost predicate HeaderShape(line: string, h: nat, w: nat)
  {
    && 1 <= h && 1 <= w && h + w < |line|
    && (forall k :: 0 <= k < h ==> line[k] == '#')
    && (forall k :: h <= k < h + w ==> IsWhitespace(line[k]))
    && (forall k :: h + w <= k < |line| ==> line[k] != '\n')
  }

  /** What a match found by the recogniser looks like. */
  lemma ParseHeaderSound(line: string)
    requires ParseHeader(line).Some?
    ensures var m := ParseHeader(line).value;
      && |m.text| >= 1 && m.level + |m.text| < |line|
      && HeaderShape(line, m.level, |line| - m.level - |m.text|)
      && m.text == line[|line| - |m.text|..]
      && line[m.level] != '#'
      && (|m.text| == 1 || !IsWhitespace(m.text[0]))
  {
    var h := LeadingCount(line, '#');
    var w := WhitespaceRun(line, h);
    if h + w < |line| {
      assert HeaderShape(line, h, w);
    } else {
      assert HeaderShape(line, h, w - 1);
    }
  }

  /** Every split the regex can use is found by the recogniser. */
  lemma ParseHeaderComplete(line: string, h: nat, w: nat)
    requires HeaderShape(line, h, w)
    ensures ParseHeader(line).Some?
  {
    LeadingCountIs(line, '#', h);
    WhitespaceRunCovers(line, h, w);
  }

  /** The recogniser agrees with the regex: it matches exactly the lines that split
      as `#+`, `\s+`, `.+`; the level is the whole run of leading `#`; the captured
      text is the rest after the whitespace run, or its last character when the
      run reaches the end of the line. */
  lemma ParseHeaderIsPattern(line: string)
    ensures ParseHeader(line).Some? <==> exists h: nat, w: nat :: HeaderShape(line, h, w)
    ensures ParseHeader(line).Some? ==>
      var m := ParseHeader(line).value;
      && |m.text| >= 1 && m.level + |m.text| < |line|
      && HeaderShape(line, m.level, |line| - m.level - |m.text|)
      && m.text == line[|line| - |m.text|..]
      && line[m.level] != '#'
      && (|m.text| == 1 || !IsWhitespace(m.text[0]))
  {
    if ParseHeader(line).Some? {
      ParseHeaderSound(line);
    }
    if exists h: nat, w: nat :: HeaderShape(line, h, w) {
      var h: nat, w: nat :| HeaderShape(line, h, w);
      ParseHeaderComplete(line, h, w);
    }
  }

  lemma {:induction false} LeadingCountIs(s: string, c: char, n: nat)
    requires n < |s| && s[n] != c
    requires forall k :: 0 <= k < n ==> s[k] == c
    ensures LeadingCount(s, c) == n
  {
    if n > 0 {
      LeadingCountIs(s[1..], c, n - 1);
    }
  }

  lemma {:induction false} WhitespaceRunCovers(s: string, from: nat, n: nat)
    requires from + n <= |s|
    requires forall k :: from <= k < from + n ==> IsWhitespace(s[k])
    ensures WhitespaceRun(s, from) >= n
    decreases n
  {
    if n > 0 {
      WhitespaceRunCovers(s, from + 1, n - 1);
    }
  }

  /** `char::to_lowercase` restricted to ASCII letters. */
  function AsciiLower(c: char): char
  {
    if 'A' <= c <= 'Z' then (c as int + 32) as char else c
  }

  /** `char::is_alphanumeric` restricted to ASCII letters and digits. */
  predicate IsAsciiAlphanumeric(c: char)
  {
    ('a' <= c <= 'z') || ('A' <= c <= 'Z') || ('0' <= c <= '9')
  }

  /** The characters a slug is made of: lower-case letters, digits and `-`. */
  predicate IsSlugChar(c: char)
  {
    ('a' <= c <= 'z') || ('0' <= c <= '9') || c == '-'
  }

  function Lowercase(s: string): (r: string)
    ensures |r| == |s| && forall k :: 0 <= k < |s| ==> r[k] == AsciiLower(s[k])
  {
    if s == [] then [] else [AsciiLower(s[0])] + Lowercase(s[1..])
  }

  function KeepSlugChar(c: char): string
  {
    if IsAsciiAlphanumeric(c) || c == '-' then [c] else []
  }

  /** Keep only the alphanumeric characters and `-`. */
  function KeepSlugChars(s: string): (r: string)
    ensures |r| <= |s|
  {
    if s == [] then [] else KeepSlugChar(s[0]) + KeepSlugChars(s[1..])
  }

  /** The slug of a header title before disambiguation: lower-cased, spaces
      turned into `-`, everything but letters, digits and `-` dropped. */
  function SlugBase(title: string): (r: string)
    ensures |r| <= |title|
  {
    KeepSlugChars(ReplaceChar(Lowercase(title), ' ', '-'))
  }

  lemma {:induction false} KeepSlugCharsAppend(a: string, b: string)
    ensures KeepSlugChars(a + b) == KeepSlugChars(a) + KeepSlugChars(b)
  {
    if a != [] {
      assert (a + b)[0] == a[0];
      assert (a + b)[1..] == a[1..] + b;
      KeepSlugCharsAppend(a[1..], b);
      calc {
        KeepSlugChars(a + b);
        KeepSlugChar(a[0]) + KeepSlugChars(a[1..] + b);
        KeepSlugChar(a[0]) + (KeepSlugChars(a[1..]) + KeepSlugChars(b));
        { AppendAssoc(KeepSlugChar(a[0]), KeepSlugChars(a[1..]), KeepSlugChars(b)); }
        (KeepSlugChar(a[0]) + KeepSlugChars(a[1..])) + KeepSlugChars(b);
      }
    } else {
      assert a + b == b;
    }
  }

  lemma {:induction false} KeepSlugCharsOfLower(s: string)
    requires forall k :: 0 <= k < |s| ==> s[k] != ' ' && 'A' <= s[k] <= 'Z' ==> false
    ensures forall k :: 0 <= k < |KeepSlugChars(s)| ==> IsSlugChar(KeepSlugChars(s)[k])
  {
    if s != [] {
      KeepSlugCharsOfLower(s[1..]);
    }
  }

  /** Every character of a slug is a lower-case letter, a digit or `-`. */
  lemma SlugBaseChars(title: string)
    ensures forall k :: 0 <= k < |SlugBase(title)| ==> IsSlugChar(SlugBase(title)[k])
  {
    KeepSlugCharsOfLower(ReplaceChar(Lowercase(title), ' ', '-'));
  }

  lemma {:induction false} KeepSlugCharsOfSlug(s: string)
    requires forall k :: 0 <= k < |s| ==> IsSlugChar(s[k])
    ensures KeepSlugChars(s) == s
  {
    if s != [] {
      KeepSlugCharsOfSlug(s[1..]);
    }
  }

  /** A title already made of slug characters is its own slug; in particular the
      slug of a slug is the slug itself. */
  lemma SlugBaseFixedPoint(title: string)
    requires forall k :: 0 <= k < |title| ==> IsSlugChar(title[k])
    ensures SlugBase(title) == title
    ensures SlugBase(SlugBase(title)) == SlugBase(title)
  {
    assert Lowercase(title) == title;
    assert ReplaceChar(title, ' ', '-') == title;
    KeepSlugCharsOfSlug(title);
  }

  lemma LowercaseAppend(a: string, b: string)
    ensures Lowercase(a + b) == Lowercase(a) + Lowercase(b)
  {
    var l := Lowercase(a + b);
    var la := Lowercase(a);
    var lb := Lowercase(b);
    var r := la + lb;
    assert |l| == |r|;
    forall k | 0 <= k < |l|
      ensures l[k] == r[k]
    {
      if k < |a| {
        assert (a + b)[k] == a[k];
        assert r[k] == la[k];
      } else {
        assert (a + b)[k] == b[k - |a|];
        assert r[k] == lb[k - |a|];
      }
    }
  }

  lemma ReplaceCharAppend(a: string, b: string, from: char, to: char)
    ensures ReplaceChar(a + b, from, to) == ReplaceChar(a, from, to) + ReplaceChar(b, from, to)
  {
    var l := ReplaceChar(a + b, from, to);
    var ra := ReplaceChar(a, from, to);
    var rb := ReplaceChar(b, from, to);
    var r := ra + rb;
    assert |l| == |r|;
    forall k | 0 <= k < |l|
      ensures l[k] == r[k]
    {
      if k < |a| {
        assert (a + b)[k] == a[k];
        assert r[k] == ra[k];
      } else {
        assert (a + b)[k] == b[k - |a|];
        assert r[k] == rb[k - |a|];
      }
    }
  }

  /** The slug is computed character by character: the slug of a concatenation is
      the concatenation of the slugs. */
  lemma SlugBaseAppend(a: string, b: string)
    ensures SlugBase(a + b) == SlugBase(a) + SlugBase(b)
  {
    LowercaseAppend(a, b);
    ReplaceCharAppend(Lowercase(a), Lowercase(b), ' ', '-');
    KeepSlugCharsAppend(ReplaceChar(Lowercase(a), ' ', '-'), ReplaceChar(Lowercase(b), ' ', '-'));
  }

  /** The slug a base gets after `k` earlier headers with the same base. */
  function Disambiguated(base: string, k: nat): string
  {
    if k == 0 then base else base + "-" + Decimal(k)
  }

  /** How many headers with base `b` the counter map has recorded: none when `b`
      is absent, and one more than the stored counter otherwise. */
  function Recorded(seen: map<string, nat>, b: string): nat
  {
    if b in seen then seen[b] + 1 else 0
  }

  /** The slug for the next header with base `base`, and the updated counters. */
  function NextSlug(base: string, seen: map<string, nat>): (string, map<string, nat>)
  {
    if base in seen then
      var count := seen[base] + 1;
      (base + "-" + Decimal(count), seen[base := count])
    else
      (base, seen[base := 0])
  }

  /** Slugs for a run of headers, threading the counter map through them in order. */
  function AssignSlugs(bases: seq<string>, seen: map<string, nat>): (r: (seq<string>, map<string, nat>))
    ensures |r.0| == |bases|
  {
    if bases == [] then ([], seen)
    else
      var step := NextSlug(bases[0], seen);
      var tail := AssignSlugs(bases[1..], step.1);
      ([step.0] + tail.0, tail.1)
  }

  lemma {:induction false} AssignSlugsFinal(bases: seq<string>, seen: map<string, nat>)
    ensures forall b :: Recorded(AssignSlugs(bases, seen).1, b) == Recorded(seen, b) + multiset(bases)[b]
  {
    if bases != [] {
      var seen' := NextSlug(bases[0], seen).1;
      assert forall b :: Recorded(seen', b) == Recorded(seen, b) + (if b == bases[0] then 1 else 0);
      AssignSlugsFinal(bases[1..], seen');
      assert multiset(bases) == multiset([bases[0]]) + multiset(bases[1..]) by {
        assert bases == [bases[0]] + bases[1..];
      }
    }
  }

  /** One header: its slug is its base disambiguated by the count recorded so
      far, and the count for its base goes up by one. */
  lemma NextSlugStep(base: string, seen: map<string, nat>, b: string)
    ensures NextSlug(base, seen).0 == Disambiguated(base, Recorded(seen, base))
    ensures Recorded(NextSlug(base, seen).1, b) == Recorded(seen, b) + (if b == base then 1 else 0)
  {
  }

  lemma PrefixCount<T>(s: seq<T>, i: nat, b: T)
    requires 0 < i <= |s|
    ensures multiset(s[..i])[b] == (if b == s[0] then 1 else 0) + multiset(s[1..][..i - 1])[b]
  {
    assert s[..i] == [s[0]] + s[1..][..i - 1];
  }

  lemma AssignSlugsCons(bases: seq<string>, seen: map<string, nat>)
    requires bases != []
    ensures AssignSlugs(bases, seen).0
      == [NextSlug(bases[0], seen).0] + AssignSlugs(bases[1..], NextSlug(bases[0], seen).1).0
  {
  }

  /** The step from the headers after the first to all of them. */
  lemma AssignSlugsStep(bases: seq<string>, seen: map<string, nat>, i: nat)
    requires 0 < i < |bases|
    requires AssignSlugs(bases[1..], NextSlug(bases[0], seen).1).0[i - 1]
        == Disambiguated(bases[i], Recorded(NextSlug(bases[0], seen).1, bases[i]) + multiset(bases[1..][..i - 1])[bases[i]])
    ensures AssignSlugs(bases, seen).0[i]
      == Disambiguated(bases[i], Recorded(seen, bases[i]) + multiset(bases[..i])[bases[i]])
  {
    var b := bases[i];
    var seen1 := NextSlug(bases[0], seen).1;
    var before := Recorded(seen1, b) + multiset(bases[1..][..i - 1])[b];
    var all := Recorded(seen, b) + multiset(bases[..i])[b];
    assert before == all by {
      CountStep(bases, seen, i, b);
    }
    calc {
      AssignSlugs(bases, seen).0[i];
      { AssignSlugsIndex(bases, seen, i); }
      AssignSlugs(bases[1..], seen1).0[i - 1];
      Disambiguated(b, before);
    }
  }

  lemma AssignSlugsHead(bases: seq<string>, seen: map<string, nat>)
    requires bases != []
    ensures AssignSlugs(bases, seen).0[0]
      == Disambiguated(bases[0], Recorded(seen, bases[0]) + multiset(bases[..0])[bases[0]])
  {
    AssignSlugsCons(bases, seen);
    NextSlugStep(bases[0], seen, bases[0]);
    assert bases[..0] == [];
  }

  lemma AssignSlugsIndex(bases: seq<string>, seen: map<string, nat>, i: nat)
    requires 0 < i < |bases|
    ensures AssignSlugs(bases, seen).0[i] == AssignSlugs(bases[1..], NextSlug(bases[0], seen).1).0[i - 1]
  {
    AssignSlugsCons(bases, seen);
  }

  lemma CountStep(bases: seq<string>, seen: map<string, nat>, i: nat, b: string)
    requires 0 < i <= |bases|
    ensures Recorded(NextSlug(bases[0], seen).1, b) + multiset(bases[1..][..i - 1])[b]
        == Recorded(seen, b) + multiset(bases[..i])[b]
  {
    NextSlugStep(bases[0], seen, b);
    PrefixCount(bases, i, b);
  }

  lemma {:induction false} AssignSlugsAt(bases: seq<string>, seen: map<string, nat>, i: nat)
    requires i < |bases|
    ensures AssignSlugs(bases, seen).0[i]
      == Disambiguated(bases[i], Recorded(seen, bases[i]) + multiset(bases[..i])[bases[i]])
  {
    if i > 0 {
      AssignSlugsAt(bases[1..], NextSlug(bases[0], seen).1, i - 1);
      assert bases[1..][i - 1] == bases[i];
      AssignSlugsStep(bases, seen, i);
    } else {
      AssignSlugsHead(bases, seen);
    }
  }

  /** The counter behaviour: each header's slug depends only on how many headers
      with the same base came before it, recorded in `seen` or earlier in `bases`
      (the first gets the bare base, the k-th later one `base-k`); the final map
      records every base once more per header with that base, and no other. */
  lemma AssignSlugsCounts(bases: seq<string>, seen: map<string, nat>)
    ensures forall i :: 0 <= i < |bases| ==>
      AssignSlugs(bases, seen).0[i]
        == Disambiguated(bases[i], Recorded(seen, bases[i]) + multiset(bases[..i])[bases[i]])
    ensures forall b :: Recorded(AssignSlugs(bases, seen).1, b) == Recorded(seen, b) + multiset(bases)[b]
  {
    AssignSlugsFinal(bases, seen);
    forall i | 0 <= i < |bases|
      ensures AssignSlugs(bases, seen).0[i]
        == Disambiguated(bases[i], Recorded(seen, bases[i]) + multiset(bases[..i])[bases[i]])
    {
      AssignSlugsAt(bases, seen, i);
    }
  }

  /** The link part of a ToC line. */
  function TocLink(title: string, slug: string): string
  {
    "- [" + title + "](" + slug + ")"
  }

  /** One ToC line: two spaces per level below 1, then the title linked to its
      slug and the page it is on. */
  function TocLine(level: nat, title: string, slug: string, page: nat): string
  {
    Repeat("  ", if level >= 1 then level - 1 else 0) + (TocLink(title, slug) + " *(Page " + Decimal(page) + ")*")
  }

  /** A ToC line starts with exactly `2 * (level - 1)` spaces, so the header level
      can be read back from it, followed by the link. */
  lemma TocLineIndent(level: nat, title: string, slug: string, page: nat)
    requires level >= 1
    ensures LeadingCount(TocLine(level, title, slug, page), ' ') == 2 * (level - 1)
    ensures StartsWith(TocLine(level, title, slug, page)[2 * (level - 1)..], "- [" + title + "](" + slug + ")")
  {
    var indent := Repeat("  ", level - 1);
    var link := TocLink(title, slug);
    var rest := link + " *(Page " + Decimal(page) + ")*";
    var line := TocLine(level, title, slug, page);
    assert line == indent + rest;
    assert line[|indent|..] == rest;
    assert rest[..|link|] == link;
    AllSpaces(level - 1);
    assert line[|indent|] == rest[0] == '-';
    LeadingCountIs(line, ' ', |indent|);
  }

  lemma {:induction false} AllSpaces(n: nat)
    ensures forall k :: 0 <= k < |Repeat("  ", n)| ==> Repeat("  ", n)[k] == ' '
  {
    if n > 0 {
      AllSpaces(n - 1);
    }
  }

  /** Two headers with the same base `b`, wherever they are, get `b` and `b-1`. */
  lemma RepeatedBase(b: string)
    ensures AssignSlugs([b, b], map[]).0 == [b, b + "-1"]
  {
    var bases := [b, b];
    var r := AssignSlugs(bases, map[]).0;
    AssignSlugsAt(bases, map[], 0);
    AssignSlugsAt(bases, map[], 1);
    assert bases[..1] == [b];
    assert Decimal(1) == "1";
    assert r[1] == b + "-" + "1" == b + "-1";
    assert r == [r[0], r[1]];
  }

  /** Only bases are counted, so a header whose own slug looks disambiguated takes
      the slug of an earlier repeated header: bases `b`, `b`, `b-1` (titles such as
      "Overview", "Overview", "Overview 1") all map to `b`, `b-1`, `b-1`. */
  lemma CountersCanCollide(b: string)
    ensures AssignSlugs([b, b, b + "-1"], map[]).0 == [b, b + "-1", b + "-1"]
  {
    var bases := [b, b, b + "-1"];
    var r := AssignSlugs(bases, map[]).0;
    AssignSlugsAt(bases, map[], 0);
    AssignSlugsAt(bases, map[], 1);
    AssignSlugsAt(bases, map[], 2);
    assert bases[..1] == [b];
    assert bases[..2] == [b, b];
    assert b != b + "-1" by { assert |b| != |b + "-1"|; }
    assert multiset(bases[..2])[b + "-1"] == 0;
    assert Decimal(1) == "1";
    assert r[1] == b + "-" + "1" == b + "-1";
    assert r[2] == b + "-1";
    assert r == [r[0], r[1], r[2]];
  }
}

=== FILE: image_strip.dfy ===
/**
 * Removal of embedded image links from a transcript before it is combined:
 * every match of the regular expression `!\[.*?\]\([^\)]*?img/[^\)]*\)` is
 * replaced by nothing, scanning left to right with leftmost-first semantics.
 *
 * The regex is written out as a recogniser. For this pattern a leftmost-first
 * match starting at `i` is the shortest match starting at `i`: the lazy `.*?`
 * tries the earliest `](` first, and the end of the match is the first `)` after
 * that `](`, which can only move right for a later `](`.
 */
module ImageStrip {
  import opened Wrappers
  import opened Text

  /** `s[i..e]` is a match of the pattern: `![`, a run without line feeds, `](`,
      a run without `)` that contains `img/`, and `)`. The `]` of the `](` is at `j`. */
  ghost predicate LinkSplit(s: string, i: nat, j: nat, e: nat)
  {
    && i + 2 <= j && j + 2 <= e - 1 && e <= |s|
    && s[j] == ']' && s[j + 1] == '('
    && (forall q :: i + 2 <= q < j ==> s[q] != '\n')
    && (forall q :: j + 2 <= q < e - 1 ==> s[q] != ')')
    && exists k :: j + 2 <= k && k + 4 <= e - 1 && OccursAt(s, k, "img/")
  }

  ghost predicate ImageRefAt(s: string, i: nat, e: nat)
  {
    && i + 1 < e <= |s|
    && s[i] == '!' && s[i + 1] == '[' && s[e - 1] == ')'
    && exists j :: LinkSplit(s, i, j, e)
  }

  /** Whether `img/` occurs inside `s[from..to]`. */
  function HasImgIn(s: string, from: nat, to: nat): bool
    requires from <= to <= |s|
    decreases |s| - from
  {
    if from + 4 > to then false
    else OccursAt(s, from, "img/") || HasImgIn(s, from + 1, to)
  }

  lemma {:induction false} HasImgInIff(s: string, from: nat, to: nat)
    requires from <= to <= |s|
    ensures HasImgIn(s, from, to) <==> exists k :: from <= k && k + 4 <= to && OccursAt(s, k, "img/")
    decreases |s| - from
  {
    if from + 4 <= to {
      HasImgInIff(s, from + 1, to);
      if !OccursAt(s, from, "img/") {
        assert forall k :: from <= k && k + 4 <= to && OccursAt(s, k, "img/") ==> from + 1 <= k;
      }
    }
  }

  /** The part of the pattern after `](`, matched from `p`: the greedy `[^\)]*`
      forces the end onto the first `)` at or after `p`. */
  function LinkTail(s: string, p: nat): (r: Option<nat>)
    requires p <= |s|
    ensures r.Some? ==> p < r.value <= |s| && s[r.value - 1] == ')'
  {
    match FindCharFrom(s, p, ')')
    case None => None
    case Some(m) => if HasImgIn(s, p, m) then Some(m + 1) else None
  }

  /** A tail found has no `)` before its end, and `img/` inside. */
  lemma LinkTailSound(s: string, p: nat)
    requires p <= |s| && LinkTail(s, p).Some?
    ensures var e := LinkTail(s, p).value;
            && (forall q :: p <= q < e - 1 ==> s[q] != ')')
            && exists k :: p <= k && k + 4 <= e - 1 && OccursAt(s, k, "img/")
  {
    var m := FindCharFrom(s, p, ')').value;
    HasImgInIff(s, p, m);
  }

  /** The lazy `.*?` followed by `](`: try each candidate `]` from `j` onwards,
      never crossing a line feed. */
  function CloseFrom(s: string, j: nat): (r: Option<nat>)
    requires j <= |s|
    decreases |s| - j
    ensures r.Some? ==> j + 2 < r.value <= |s| && s[r.value - 1] == ')'
  {
    if j == |s| then None
    else if s[j] == ']' && j + 1 < |s| && s[j + 1] == '(' && LinkTail(s, j + 2).Some? then LinkTail(s, j + 2)
    else if s[j] == '\n' then None
    else CloseFrom(s, j + 1)
  }

  /** The end of the match of the pattern starting at `i`, if there is one. */
  function MatchAt(s: string, i: nat): (r: Option<nat>)
    requires i <= |s|
    ensures r.Some? ==> i + 4 < r.value <= |s|
  {
    if i + 1 < |s| && s[i] == '!' && s[i + 1] == '[' then CloseFrom(s, i + 2) else None
  }

  /** `Regex::replace_all(s[i..], "")`. */
  function StripFrom(s: string, i: nat): (r: string)
    requires i <= |s|
    decreases |s| - i
    ensures |r| <= |s| - i
  {
    if i == |s| then []
    else if s[i] != '!' then [s[i]] + StripFrom(s, i + 1)
    else match MatchAt(s, i)
      case Some(e) => StripFrom(s, e)
      case None => [s[i]] + StripFrom(s, i + 1)
  }

  /** The transcript with every image link into an `img/` path removed. */
  function StripImages(s: string): (r: string)
    ensures |r| <= |s|
  {
    StripFrom(s, 0)
  }

  lemma {:induction false} CloseFromSound(s: string, i: nat, j: nat)
    requires i + 2 <= j <= |s|
    requires forall q :: i + 2 <= q < j ==> s[q] != '\n'
    requires CloseFrom(s, j).Some?
    ensures exists jj :: LinkSplit(s, i, jj, CloseFrom(s, j).value)
    decreases |s| - j
  {
    var e := CloseFrom(s, j).value;
    if s[j] == ']' && j + 1 < |s| && s[j + 1] == '(' && LinkTail(s, j + 2).Some? {
      LinkTailSound(s, j + 2);
      assert LinkSplit(s, i, j, e);
    } else {
      CloseFromSound(s, i, j + 1);
    }
  }

  /** The `)` found after `p` comes no later than any `)` after `p`. */
  lemma LinkTailBefore(s: string, p: nat, e: nat)
    requires p < e <= |s| && s[e - 1] == ')'
    requires LinkTail(s, p).Some?
    ensures LinkTail(s, p).value <= e
  {
    var m := FindCharFrom(s, p, ')');
    assert m.Some? && m.value <= e - 1;
  }

  /** Scanning from `j`, the recogniser stops at a `](` no later than the one at `jj`. */
  lemma {:induction false} CloseFromReaches(s: string, j: nat, jj: nat, e: nat)
    requires j <= jj && jj + 1 < |s| && s[jj] == ']' && s[jj + 1] == '('
    requires forall q :: j <= q < jj ==> s[q] != '\n'
    requires LinkTail(s, jj + 2) == Some(e)
    ensures CloseFrom(s, j).Some? && CloseFrom(s, j).value <= e
    decreases jj - j
  {
    if j == jj {
      CloseFromAt(s, jj, e);
    } else if s[j] == ']' && j + 1 < |s| && s[j + 1] == '(' && LinkTail(s, j + 2).Some? {
      LinkTailBefore(s, j + 2, e);
    } else {
      assert s[j] != '\n';
      CloseFromReaches(s, j + 1, jj, e);
    }
  }

  lemma CloseFromShortest(s: string, i: nat, j: nat, jj: nat, e: nat)
    requires i + 2 <= j <= jj
    requires LinkSplit(s, i, jj, e) && s[e - 1] == ')'
    ensures CloseFrom(s, j).Some? && CloseFrom(s, j).value <= e
  {
    LinkTailAt(s, jj + 2, e);
    CloseFromReaches(s, j, jj, e);
  }

  /** The recogniser finds exactly the shortest match of the pattern at `i`,
      and reports none when the pattern does not match at `i`. */
  lemma MatchAtIsShortestMatch(s: string, i: nat)
    requires i <= |s|
    ensures MatchAt(s, i).Some? ==> ImageRefAt(s, i, MatchAt(s, i).value)
    ensures forall e :: ImageRefAt(s, i, e) ==> MatchAt(s, i).Some? && MatchAt(s, i).value <= e
  {
    if MatchAt(s, i).Some? {
      var e := MatchAt(s, i).value;
      CloseFromSound(s, i, i + 2);
    }
    forall e | ImageRefAt(s, i, e)
      ensures MatchAt(s, i).Some? && MatchAt(s, i).value <= e
    {
      var jj: nat :| LinkSplit(s, i, jj, e);
      CloseFromShortest(s, i, i + 2, jj, e);
    }
  }

  lemma {:induction false} StripFromWithoutBang(s: string, i: nat)
    requires i <= |s|
    requires forall q :: !OccursAt(s, q, "![")
    ensures StripFrom(s, i) == s[i..]
    decreases |s| - i
  {
    if i < |s| {
      if i + 1 < |s| {
        assert s[i..i + 2] == [s[i], s[i + 1]];
        assert !OccursAt(s, i, "![");
      }
      StripFromWithoutBang(s, i + 1);
    }
  }

  /** A transcript without any `![` is left untouched. */
  lemma StripWithoutBang(s: string)
    requires forall q :: !OccursAt(s, q, "![")
    ensures StripImages(s) == s
  {
    StripFromWithoutBang(s, 0);
  }

  lemma {:induction false} StripFromPlain(s: string, i: nat, j: nat)
    requires i <= j <= |s|
    requires forall q :: i <= q < j ==> s[q] != '!'
    ensures StripFrom(s, i) == s[i..j] + StripFrom(s, j)
    decreases j - i
  {
    if i < j {
      var rest := StripFrom(s, j);
      StripFromPlain(s, i + 1, j);
      assert StripFrom(s, i) == [s[i]] + (s[i + 1..j] + rest);
      assert s[i..j] == [s[i]] + s[i + 1..j];
      AppendAssoc([s[i]], s[i + 1..j], rest);
    }
  }

  lemma {:induction false} CloseFromSkips(s: string, j: nat, jj: nat)
    requires j <= jj <= |s|
    requires forall q :: j <= q < jj ==> s[q] != ']' && s[q] != '\n'
    ensures CloseFrom(s, j) == CloseFrom(s, jj)
    decreases jj - j
  {
    if j < jj {
      CloseFromSkips(s, j + 1, jj);
    }
  }

  /** An image link `![alt](path)` whose alt text has no `]` or line feed and whose
      path has no `)` but contains `img/`. */
  ghost predicate IsPlainImageLink(alt: string, path: string)
  {
    && (forall q :: 0 <= q < |alt| ==> alt[q] != ']' && alt[q] != '\n')
    && (forall q :: 0 <= q < |path| ==> path[q] != ')')
    && exists k :: OccursAt(path, k, "img/")
  }

  /** After `](` at `p`: a run without `)` that contains `img/`, closed by `)`. */
  lemma LinkTailAt(s: string, p: nat, e: nat)
    requires p < e <= |s| && s[e - 1] == ')'
    requires forall q :: p <= q < e - 1 ==> s[q] != ')'
    requires exists k :: p <= k && k + 4 <= e - 1 && OccursAt(s, k, "img/")
    ensures LinkTail(s, p) == Some(e)
  {
    var m := FindCharFrom(s, p, ')');
    assert m == Some(e - 1);
    HasImgInIff(s, p, e - 1);
  }

  lemma CloseFromAt(s: string, jj: nat, e: nat)
    requires jj + 1 < |s| && s[jj] == ']' && s[jj + 1] == '('
    requires LinkTail(s, jj + 2) == Some(e)
    ensures CloseFrom(s, jj) == Some(e)
  {
  }

  lemma {:induction false} MatchPlainLink(s: string, i: nat, jj: nat, e: nat)
    requires i + 2 <= jj && jj + 2 < e <= |s|
    requires s[i] == '!' && s[i + 1] == '[' && s[jj] == ']' && s[jj + 1] == '(' && s[e - 1] == ')'
    requires forall q :: i + 2 <= q < jj ==> s[q] != ']' && s[q] != '\n'
    requires forall q :: jj + 2 <= q < e - 1 ==> s[q] != ')'
    requires exists k :: jj + 2 <= k && k + 4 <= e - 1 && OccursAt(s, k, "img/")
    ensures MatchAt(s, i) == Some(e)
  {
    CloseFromSkips(s, i + 2, jj);
    LinkTailAt(s, jj + 2, e);
    CloseFromAt(s, jj, e);
  }

  lemma LinkLayout(link: string, alt: string, path: string)
    requires link == "![" + alt + "](" + path + ")"
    ensures |link| == |alt| + |path| + 5
    ensures link[0] == '!' && link[1] == '[' && link[2 + |alt|] == ']' && link[3 + |alt|] == '('
    ensures link[|link| - 1] == ')'
    ensures link[2..2 + |alt|] == alt && link[4 + |alt|..|link| - 1] == path
  {
    assert link == ("![" + alt) + ("](" + path + ")");
  }

  lemma StripAroundMatch(s: string, i: nat, e: nat)
    requires i <= |s| && MatchAt(s, i) == Some(e)
    requires forall q :: 0 <= q < i ==> s[q] != '!'
    requires forall q :: e <= q < |s| ==> s[q] != '!'
    ensures StripImages(s) == s[..i] + s[e..]
  {
    var tail := StripFrom(s, e);
    assert tail == s[e..] by {
      StripFromPlain(s, e, |s|);
      assert StripFrom(s, |s|) == [];
      assert s[e..|s|] + [] == s[e..];
    }
    assert StripFrom(s, i) == tail;
    StripFromPlain(s, 0, i);
    assert s[0..i] == s[..i];
  }

  /** A slice of a part of `s` is a slice of `s`. */
  lemma SliceOfPart(s: string, i: nat, t: string, a: nat, b: nat)
    requires i + |t| <= |s| && s[i..i + |t|] == t && a <= b <= |t|
    ensures s[i + a..i + b] == t[a..b]
  {
    forall k | 0 <= k < b - a
      ensures s[i + a..i + b][k] == t[a..b][k]
    {
      assert t[a..b][k] == t[a + k] == s[i..i + |t|][a + k];
    }
  }

  /** Where `t` sits at `p` in `s`, the characters of `s` there are those of `t`. */
  lemma CharsOfPart(s: string, p: nat, t: string)
    requires p + |t| <= |s| && s[p..p + |t|] == t
    ensures forall q :: p <= q < p + |t| ==> s[q] == t[q - p]
  {
    forall q | p <= q < p + |t|
      ensures s[q] == t[q - p]
    {
      assert s[q] == s[p..p + |t|][q - p];
    }
  }

  lemma AltInText(s: string, p: nat, alt: string)
    requires p + |alt| <= |s| && s[p..p + |alt|] == alt
    requires forall q :: 0 <= q < |alt| ==> alt[q] != ']' && alt[q] != '\n'
    ensures forall q :: p <= q < p + |alt| ==> s[q] != ']' && s[q] != '\n'
  {
    CharsOfPart(s, p, alt);
  }

  lemma PathInText(s: string, p: nat, path: string)
    requires p + |path| <= |s| && s[p..p + |path|] == path
    requires forall q :: 0 <= q < |path| ==> path[q] != ')'
    requires exists k :: OccursAt(path, k, "img/")
    ensures forall q :: p <= q < p + |path| ==> s[q] != ')'
    ensures exists k :: p <= k && k + 4 <= p + |path| && OccursAt(s, k, "img/")
  {
    CharsOfPart(s, p, path);
    var k :| OccursAt(path, k, "img/");
    SliceOfPart(s, p, path, k, k + 4);
    assert OccursAt(s, p + k, "img/");
  }

  lemma LinkPunctuation(s: string, i: nat, link: string, alt: string, path: string)
    requires link == "![" + alt + "](" + path + ")"
    requires i + |link| <= |s| && s[i..i + |link|] == link
    ensures |link| == |alt| + |path| + 5
    ensures s[i] == '!' && s[i + 1] == '[' && s[i + 2 + |alt|] == ']' && s[i + 3 + |alt|] == '('
    ensures s[i + |link| - 1] == ')'
    ensures s[i + 2..i + 2 + |alt|] == alt && s[i + 4 + |alt|..i + |link| - 1] == path
  {
    LinkLayout(link, alt, path);
    assert s[i] == link[0] && s[i + 1] == link[1] by {
      assert s[i..i + |link|][0] == s[i];
    }
    CharsOfPart(s, i, link);
    SliceOfPart(s, i, link, 2, 2 + |alt|);
    SliceOfPart(s, i, link, 4 + |alt|, |link| - 1);
  }

  /** A plain image link at position `i` of `s` is matched from its `!` to its `)`. */
  lemma LinkAt(s: string, i: nat, alt: string, path: string)
    requires IsPlainImageLink(alt, path)
    requires i + |alt| + |path| + 5 <= |s|
    requires s[i..i + |alt| + |path| + 5] == "![" + alt + "](" + path + ")"
    ensures MatchAt(s, i) == Some(i + |alt| + |path| + 5)
  {
    var link := "![" + alt + "](" + path + ")";
    var jj := i + 2 + |alt|;
    var e := i + |link|;
    LinkPunctuation(s, i, link, alt, path);
    AltInText(s, i + 2, alt);
    PathInText(s, jj + 2, path);
    MatchPlainLink(s, i, jj, e);
  }

  /** A target closed by `)` at `m` without `img/` before it does not end a match. */
  lemma LinkTailFails(s: string, p: nat, m: nat)
    requires p <= m < |s| && s[m] == ')'
    requires forall q :: p <= q < m ==> s[q] != ')'
    requires forall k :: p <= k && k + 4 <= m ==> !OccursAt(s, k, "img/")
    ensures LinkTail(s, p) == None
  {
    assert FindCharFrom(s, p, ')') == Some(m);
    HasImgInIff(s, p, m);
  }

  /** Past a `](` whose target fails, the alt-text scan goes on. */
  lemma CloseFromPastFailure(s: string, j: nat)
    requires j + 1 < |s| && s[j] != '\n' && LinkTail(s, j + 2).None?
    ensures CloseFrom(s, j) == CloseFrom(s, j + 1)
  {
  }

  /** A `](` whose target fails does not end the alt text: the scan goes on to the
      next `](` of the line. */
  lemma MatchPastFailedTarget(s: string, i: nat, j1: nat, m: nat, jj: nat, e: nat)
    requires i + 2 <= j1 && j1 + 2 <= m < jj && jj + 2 < e <= |s|
    requires s[i] == '!' && s[i + 1] == '['
    requires s[j1] == ']' && s[j1 + 1] == '(' && s[m] == ')'
    requires forall q :: i + 2 <= q < j1 ==> s[q] != ']' && s[q] != '\n'
    requires LinkTail(s, j1 + 2).None?
    requires forall q :: j1 + 1 <= q < jj ==> s[q] != ']' && s[q] != '\n'
    requires LinkTail(s, jj + 2) == Some(e)
    requires s[jj] == ']' && s[jj + 1] == '('
    ensures MatchAt(s, i) == Some(e)
  {
    CloseFromSkips(s, i + 2, j1);
    CloseFromPastFailure(s, j1);
    CloseFromSkips(s, j1 + 1, jj);
    CloseFromAt(s, jj, e);
  }

  lemma AltLayout(alt: string, target: string, mid: string, a2: string)
    requires a2 == alt + "](" + target + ")" + mid
    ensures |a2| == |alt| + |target| + |mid| + 3
    ensures a2[|alt|] == ']' && a2[|alt| + 1] == '(' && a2[|alt| + 2 + |target|] == ')'
    ensures a2[0..|alt|] == alt && a2[|alt| + 2..|alt| + 2 + |target|] == target
    ensures a2[|alt| + 3 + |target|..|a2|] == mid
  {
    assert a2 == (alt + "](") + (target + ")") + mid;
  }

  /** The characters of the alt text `alt ](target) mid` of a link at the start of `s`. */
  lemma AltChars(s: string, alt: string, target: string, mid: string, a2: string)
    requires a2 == alt + "](" + target + ")" + mid
    requires 2 + |a2| <= |s| && s[2..2 + |a2|] == a2
    requires forall q :: 0 <= q < |alt| ==> alt[q] != ']' && alt[q] != '\n'
    requires forall q :: 0 <= q < |target| ==> target[q] != ')' && target[q] != ']' && target[q] != '\n'
    requires forall q :: 0 <= q < |mid| ==> mid[q] != ']' && mid[q] != '\n'
    ensures var j1 := 2 + |alt|; var m := j1 + 2 + |target|;
            && s[j1] == ']' && s[j1 + 1] == '(' && s[m] == ')'
            && (forall q :: 2 <= q < j1 ==> s[q] != ']' && s[q] != '\n')
            && (forall q :: j1 + 1 <= q < 2 + |a2| ==> s[q] != ']' && s[q] != '\n')
            && (forall q :: j1 + 2 <= q < m ==> s[q] != ')')
  {
    AltLayout(alt, target, mid, a2);
    CharsOfPart(s, 2, a2);
    CharsOfPart(a2, 0, alt);
    CharsOfPart(a2, |alt| + 2, target);
    CharsOfPart(a2, |alt| + 3 + |target|, mid);
  }

  /** No `img/` starts inside the target. */
  lemma TargetWithoutImg(s: string, alt: string, target: string, mid: string, a2: string)
    requires a2 == alt + "](" + target + ")" + mid
    requires 2 + |a2| <= |s| && s[2..2 + |a2|] == a2
    requires forall k :: !OccursAt(target, k, "img/")
    ensures forall k :: 4 + |alt| <= k && k + 4 <= 4 + |alt| + |target| ==> !OccursAt(s, k, "img/")
  {
    AltLayout(alt, target, mid, a2);
    forall k | 4 + |alt| <= k && k + 4 <= 4 + |alt| + |target|
      ensures !OccursAt(s, k, "img/")
    {
      SliceOfPart(s, 2, a2, k - 2, k + 2);
      SliceOfPart(a2, |alt| + 2, target, k - 4 - |alt|, k - |alt|);
      assert !OccursAt(target, k - 4 - |alt|, "img/");
    }
  }

  /** The positions `MatchPastFailedTarget` needs, in `![alt](target) mid](path)`,
      given where its parts lie. */
  lemma FailedTargetShape(alt: string, target: string, mid: string, path: string, a2: string, s: string,
                          j1: nat, m: nat, jj: nat)
    requires forall q :: 0 <= q < |alt| ==> alt[q] != ']' && alt[q] != '\n'
    requires forall q :: 0 <= q < |target| ==> target[q] != ')' && target[q] != ']' && target[q] != '\n'
    requires forall k :: !OccursAt(target, k, "img/")
    requires forall q :: 0 <= q < |mid| ==> mid[q] != ']' && mid[q] != '\n'
    requires forall q :: 0 <= q < |path| ==> path[q] != ')'
    requires exists k :: OccursAt(path, k, "img/")
    requires a2 == alt + "](" + target + ")" + mid
    requires |s| == |a2| + |path| + 5
    requires s[2 + |a2|] == ']' && s[3 + |a2|] == '(' && s[|s| - 1] == ')'
    requires s[2..2 + |a2|] == a2 && s[4 + |a2|..|s| - 1] == path
    requires j1 == 2 + |alt| && m == j1 + 2 + |target| && jj == m + 1 + |mid|
    ensures j1 + 2 <= m < jj && jj + 2 < |s|
    ensures s[j1] == ']' && s[j1 + 1] == '(' && s[m] == ')'
    ensures forall q :: 2 <= q < j1 ==> s[q] != ']' && s[q] != '\n'
    ensures LinkTail(s, j1 + 2).None?
    ensures forall q :: j1 + 1 <= q < jj ==> s[q] != ']' && s[q] != '\n'
    ensures LinkTail(s, jj + 2) == Some(|s|)
    ensures s[jj] == ']' && s[jj + 1] == '('
  {
    AltLayout(alt, target, mid, a2);
    assert jj == 2 + |a2|;
    AltChars(s, alt, target, mid, a2);
    assert LinkTail(s, j1 + 2).None? by {
      TargetWithoutImg(s, alt, target, mid, a2);
      LinkTailFails(s, j1 + 2, m);
    }
    PathTail(s, jj + 2, path);
  }

  /** An `img/` target placed at `p` and closed by `)` is taken as the link tail. */
  lemma PathTail(s: string, p: nat, path: string)
    requires p + |path| < |s| && s[p..p + |path|] == path && s[p + |path|] == ')'
    requires forall q :: 0 <= q < |path| ==> path[q] != ')'
    requires exists k :: OccursAt(path, k, "img/")
    ensures LinkTail(s, p) == Some(p + |path| + 1)
  {
    PathInText(s, p, path);
    LinkTailAt(s, p, p + |path| + 1);
  }

  /** An ordinary link whose target has no `img/`, followed on the same line by a
      second `](` with an `img/` target, is removed together with that target:
      `![a](x) b](img/c)` is removed whole. */
  lemma StripPastFailedTarget(alt: string, target: string, mid: string, path: string)
    requires forall q :: 0 <= q < |alt| ==> alt[q] != ']' && alt[q] != '\n'
    requires forall q :: 0 <= q < |target| ==> target[q] != ')' && target[q] != ']' && target[q] != '\n'
    requires forall k :: !OccursAt(target, k, "img/")
    requires forall q :: 0 <= q < |mid| ==> mid[q] != ']' && mid[q] != '\n'
    requires forall q :: 0 <= q < |path| ==> path[q] != ')'
    requires exists k :: OccursAt(path, k, "img/")
    ensures StripImages("![" + (alt + "](" + target + ")" + mid) + "](" + path + ")") == []
  {
    var a2 := alt + "](" + target + ")" + mid;
    var s := "![" + a2 + "](" + path + ")";
    LinkLayout(s, a2, path);
    StripLaidOutFailedTarget(alt, target, mid, path, a2, s);
  }

  /** `StripPastFailedTarget`, given where the parts of the line lie. */
  lemma StripLaidOutFailedTarget(alt: string, target: string, mid: string, path: string, a2: string, s: string)
    requires forall q :: 0 <= q < |alt| ==> alt[q] != ']' && alt[q] != '\n'
    requires forall q :: 0 <= q < |target| ==> target[q] != ')' && target[q] != ']' && target[q] != '\n'
    requires forall k :: !OccursAt(target, k, "img/")
    requires forall q :: 0 <= q < |mid| ==> mid[q] != ']' && mid[q] != '\n'
    requires forall q :: 0 <= q < |path| ==> path[q] != ')'
    requires exists k :: OccursAt(path, k, "img/")
    requires a2 == alt + "](" + target + ")" + mid
    requires |s| == |a2| + |path| + 5
    requires s[0] == '!' && s[1] == '['
    requires s[2 + |a2|] == ']' && s[3 + |a2|] == '(' && s[|s| - 1] == ')'
    requires s[2..2 + |a2|] == a2 && s[4 + |a2|..|s| - 1] == path
    ensures StripImages(s) == []
  {
    var j1 := 2 + |alt|;
    var m := j1 + 2 + |target|;
    var jj := m + 1 + |mid|;
    FailedTargetShape(alt, target, mid, path, a2, s, j1, m, jj);
    MatchPastFailedTarget(s, 0, j1, m, jj, |s|);
    assert StripFrom(s, |s|) == [];
  }

  lemma LinkInText(s: string, before: string, alt: string, path: string, after: string)
    requires IsPlainImageLink(alt, path)
    requires s == before + "![" + alt + "](" + path + ")" + after
    ensures MatchAt(s, |before|) == Some(|before| + |alt| + |path| + 5)
  {
    var link := "![" + alt + "](" + path + ")";
    assert s == before + link + after;
    assert s[|before|..|before| + |link|] == link;
    LinkAt(s, |before|, alt, path);
  }

  /** Such a link is removed from the middle of a transcript, and the text on either
      side of it (here free of `!`) is kept as it is. */
  lemma StripRemovesLink(before: string, alt: string, path: string, after: string)
    requires IsPlainImageLink(alt, path)
    requires forall q :: 0 <= q < |before| ==> before[q] != '!'
    requires forall q :: 0 <= q < |after| ==> after[q] != '!'
    ensures StripImages(before + "![" + alt + "](" + path + ")" + after) == before + after
  {
    var s := before + "![" + alt + "](" + path + ")" + after;
    var i := |before|;
    var e := i + |alt| + |path| + 5;
    LinkInText(s, before, alt, path, after);
    assert s[..i] == before && s[e..] == after;
    forall q | 0 <= q < i ensures s[q] != '!' { assert s[q] == before[q]; }
    forall q | e <= q < |s| ensures s[q] != '!' { assert s[q] == after[q - e]; }
    StripAroundMatch(s, i, e);
  }
}

=== FILE: numbers.dfy ===
/**
 * Decimal formatting (`{}` and `{:04}` of an unsigned integer) and
 * `str::parse::<usize>`, the two directions page numbers travel in.
 */
module Numbers {
  import opened Wrappers
  import Text

  /** The largest `usize` on a 64-bit target. */
  const USIZE_MAX: nat := 0xFFFF_FFFF_FFFF_FFFF

  predicate IsDigit(c: char)
  {
    '0' <= c <= '9'
  }

  predicate AllDigits(s: string)
  {
    forall k :: 0 <= k < |s| ==> IsDigit(s[k])
  }

  function DigitChar(d: nat): (c: char)
    requires d < 10
    ensures IsDigit(c)
  {
    ['0', '1', '2', '3', '4', '5', '6', '7', '8', '9'][d]
  }

  function DigitValue(c: char): (d: nat)
    requires IsDigit(c)
    ensures d < 10
  {
    (c as int - '0' as int) as nat
  }

  /** The number a string of decimal digits denotes, most significant first. */
  function ValueOf(s: string): nat
    requires AllDigits(s)
  {
    if s == [] then 0 else ValueOf(s[..|s| - 1]) * 10 + DigitValue(s[|s| - 1])
  }

  /** `format!("{}", n)`: decimal digits without leading zeros. */
  function Decimal(n: nat): (r: string)
    ensures AllDigits(r) && r != []
    ensures |r| > 1 ==> r[0] != '0'
  {
    if n < 10 then [DigitChar(n)] else Decimal(n / 10) + [DigitChar(n % 10)]
  }

  /** `k` zero characters, the fill of a zero-padded width. */
  function Zeros(k: nat): (r: string)
    ensures |r| == k && forall i :: 0 <= i < k ==> r[i] == '0'
  {
    if k == 0 then [] else "0" + Zeros(k - 1)
  }

  function Pow10(k: nat): (p: nat)
    ensures p >= 1
  {
    if k == 0 then 1 else 10 * Pow10(k - 1)
  }

  /** The decimal rendering of `n` has at most `k` digits exactly when `n < 10^k`. */
  lemma {:induction false} DecimalWidth(n: nat, k: nat)
    requires k >= 1
    ensures |Decimal(n)| <= k <==> n < Pow10(k)
    decreases k
  {
    if n >= 10 {
      if k == 1 {
        assert |Decimal(n)| == |Decimal(n / 10)| + 1;
      } else {
        DecimalWidth(n / 10, k - 1);
        assert |Decimal(n)| == |Decimal(n / 10)| + 1;
        assert n / 10 < Pow10(k - 1) <==> n < 10 * Pow10(k - 1);
      }
    } else if k > 1 {
      assert Pow10(k) == 10 * Pow10(k - 1);
    }
  }

  /** `format!("{:04}", n)`: decimal digits padded with zeros to a width of four;
      a number of four or more digits is written as it is. */
  function ZeroPad4(n: nat): (r: string)
    ensures AllDigits(r) && |r| >= 4
    ensures n < 10000 ==> |r| == 4
    ensures n >= 1000 ==> r == Decimal(n)
  {
    var d := Decimal(n);
    DecimalWidth(n, 4);
    DecimalWidth(n, 3);
    if |d| < 4 then Zeros(4 - |d|) + d else d
  }

  /** `str::parse::<usize>`: an optional `+` followed by at least one ASCII digit,
      whose value fits in a `usize`. */
  function ParseUsize(s: string): (r: Option<nat>)
    ensures r.Some? ==> r.value <= USIZE_MAX
  {
    var digits := if s != [] && s[0] == '+' then s[1..] else s;
    if digits != [] && AllDigits(digits) && ValueOf(digits) <= USIZE_MAX
    then Some(ValueOf(digits))
    else None
  }

  lemma {:induction false} DecimalValue(n: nat)
    ensures ValueOf(Decimal(n)) == n
  {
    if n >= 10 {
      var d := Decimal(n);
      assert d[..|d| - 1] == Decimal(n / 10);
      DecimalValue(n / 10);
    }
  }

  lemma {:induction false} LeadingZerosValue(k: nat, s: string)
    requires AllDigits(s)
    ensures AllDigits(Zeros(k) + s)
    ensures ValueOf(Zeros(k) + s) == ValueOf(s)
  {
    if k == 0 {
      assert Zeros(k) + s == s;
    } else {
      var rest := Zeros(k - 1) + s;
      LeadingZerosValue(k - 1, s);
      OneLeadingZero(rest);
      assert Zeros(k) + s == "0" + rest by {
        assert Zeros(k) == "0" + Zeros(k - 1);
        Text.AppendAssoc("0", Zeros(k - 1), s);
      }
    }
  }

  lemma {:induction false} OneLeadingZero(s: string)
    requires AllDigits(s)
    ensures AllDigits("0" + s) && ValueOf("0" + s) == ValueOf(s)
  {
    if s != [] {
      assert ("0" + s)[..|"0" + s| - 1] == "0" + s[..|s| - 1];
      OneLeadingZero(s[..|s| - 1]);
    }
  }

  /** Formatting and parsing are inverse: `n.to_string().parse()` and the padded form
      `format!("{:04}", n).parse()` both give back `n` whenever it fits in a `usize`. */
  lemma ParseDecimal(n: nat)
    requires n <= USIZE_MAX
    ensures ParseUsize(Decimal(n)) == Some(n)
    ensures ParseUsize(ZeroPad4(n)) == Some(n)
  {
    DecimalValue(n);
    ParseDigits(Decimal(n));
    ZeroPad4Value(n);
    ParseDigits(ZeroPad4(n));
  }

  /** A digit string, which cannot start with `+`, parses to its value when that fits. */
  lemma ParseDigits(s: string)
    requires AllDigits(s) && s != [] && ValueOf(s) <= USIZE_MAX
    ensures ParseUsize(s) == Some(ValueOf(s))
  {
    assert IsDigit(s[0]);
  }

  /** A leading `+` is accepted once and changes nothing. */
  lemma ParsePlus(d: string)
    requires AllDigits(d)
    ensures ParseUsize("+" + d) == ParseUsize(d)
  {
    assert ("+" + d)[1..] == d;
  }

  /** A digit string of value zero is all zeros. */
  lemma {:induction false} ZeroValueDigits(s: string)
    requires AllDigits(s) && ValueOf(s) == 0
    ensures forall k :: 0 <= k < |s| ==> s[k] == '0'
  {
    if s != [] {
      var init := s[..|s| - 1];
      ZeroValueDigits(init);
      assert forall k :: 0 <= k < |init| ==> s[k] == init[k];
    }
  }

  lemma DigitRoundTrip(c: char)
    requires IsDigit(c)
    ensures DigitChar(DigitValue(c)) == c
  {
  }

  /** A digit string without a leading zero is the rendering of its value. */
  lemma {:induction false} DecimalOfValue(d: string)
    requires AllDigits(d) && d != []
    requires |d| > 1 ==> d[0] != '0'
    ensures Decimal(ValueOf(d)) == d
  {
    var v := ValueOf(d);
    var last := d[|d| - 1];
    DigitRoundTrip(last);
    if |d| == 1 {
      assert d[..0] == [];
      assert d == [last];
    } else {
      var init := d[..|d| - 1];
      assert init[0] == d[0];
      if ValueOf(init) == 0 {
        ZeroValueDigits(init);
        assert false;
      }
      assert v / 10 == ValueOf(init) && v % 10 == DigitValue(last);
      DecimalOfValue(init);
      assert d == init + [last];
    }
  }

  /** Every non-empty digit string is zeros followed by the rendering of its value. */
  lemma {:induction false} DigitsCanonical(d: string)
    requires AllDigits(d) && d != []
    ensures |Decimal(ValueOf(d))| <= |d|
    ensures d == Zeros(|d| - |Decimal(ValueOf(d))|) + Decimal(ValueOf(d))
  {
    if |d| > 1 && d[0] == '0' {
      var rest := d[1..];
      assert d == "0" + rest;
      OneLeadingZero(rest);
      var v := ValueOf(rest);
      assert ValueOf(d) == v;
      DigitsCanonical(rest);
      var r := Decimal(v);
      ZeroPrepend(d, rest, |rest| - |r|, r);
      assert Decimal(ValueOf(d)) == r;
      assert |d| - |r| == |rest| - |r| + 1;
    } else {
      DecimalOfValue(d);
      assert Decimal(ValueOf(d)) == d;
      assert Zeros(0) + d == d;
    }
  }

  /** One more leading zero keeps a string zeros followed by `r`. */
  lemma ZeroPrepend(d: string, rest: string, k: nat, r: string)
    requires d == "0" + rest && rest == Zeros(k) + r
    ensures d == Zeros(k + 1) + r
  {
    assert Zeros(k + 1) == "0" + Zeros(k);
    Text.AppendAssoc("0", Zeros(k), r);
  }

  /** Only an optional `+`, then zeros, then the rendering of `v` parses as `v`: every
      other string, such as one with a sign `-`, a letter or no digit, gives nothing. */
  lemma ParseUsizeShape(s: string, v: nat)
    requires ParseUsize(s) == Some(v)
    ensures exists k: nat :: s == Zeros(k) + Decimal(v) || s == "+" + Zeros(k) + Decimal(v)
  {
    if s != [] && s[0] == '+' {
      var k := PlusDigitsShape(s, v);
      assert s == "+" + Zeros(k) + Decimal(v);
    } else {
      var k := DigitsShape(s, v);
      assert s == Zeros(k) + Decimal(v);
    }
  }

  /** `ParseUsizeShape` for a string without a leading `+`. */
  lemma DigitsShape(s: string, v: nat) returns (k: nat)
    requires ParseUsize(s) == Some(v)
    requires s == [] || s[0] != '+'
    ensures s == Zeros(k) + Decimal(v)
  {
    assert AllDigits(s) && s != [] && ValueOf(s) == v;
    DigitsCanonical(s);
    k := |s| - |Decimal(v)|;
  }

  /** `ParseUsizeShape` for a string with a leading `+`. */
  lemma PlusDigitsShape(s: string, v: nat) returns (k: nat)
    requires ParseUsize(s) == Some(v)
    requires s != [] && s[0] == '+'
    ensures s == "+" + Zeros(k) + Decimal(v)
  {
    var d := s[1..];
    PlusDigits(s, v);
    DigitsCanonical(d);
    k := |d| - |Decimal(v)|;
    PlusParts(s, d, Zeros(k), Decimal(v));
  }

  lemma PlusDigits(s: string, v: nat)
    requires ParseUsize(s) == Some(v)
    requires s != [] && s[0] == '+'
    ensures AllDigits(s[1..]) && s[1..] != [] && ValueOf(s[1..]) == v
  {
  }

  lemma PlusParts(s: string, d: string, z: string, r: string)
    requires s != [] && s[0] == '+' && d == s[1..] && d == z + r
    ensures s == "+" + z + r
  {
    assert s == "+" + d;
    Text.AppendAssoc("+", z, r);
  }

  lemma ZeroPad4Value(n: nat)
    ensures ValueOf(ZeroPad4(n)) == n
  {
    DecimalValue(n);
    var d := Decimal(n);
    if |d| < 4 {
      LeadingZerosValue(4 - |d|, d);
    }
  }
}

=== FILE: page_names.dfy ===
/**
 * The file names that carry a page number between the stages: the extraction
 * stage writes `page_NNNN.png`, the transcription stage writes the same stem with
 * a `.md` extension, and the combine stage parses the number back out.
 */
module PageNames {
  import opened Wrappers
  import opened Text
  import opened Numbers

  /** The image file the extraction stage writes for the 0-based page `index`:
      the 1-based page number, zero-padded to four digits. */
  function PageImageName(index: nat): (r: string)
    ensures |r| >= 13 && StartsWith(r, "page_") && EndsWith(r, ".png")
    ensures AllDigits(r[5..|r| - 4]) && ValueOf(r[5..|r| - 4]) == index + 1
  {
    var d := ZeroPad4(index + 1);
    var r := "page_" + d + ".png";
    assert r[5..|r| - 4] == d;
    ZeroPad4Value(index + 1);
    r
  }

  /** The transcript file name for an image file name: its stem plus `.md`. */
  function TranscriptName(imageName: string): (r: string)
    ensures EndsWith(r, ".md") && StartsWith(imageName, r[..|r| - 3])
  {
    var r := FileStem(imageName) + ".md";
    assert r[..|r| - 3] == FileStem(imageName);
    r
  }

  /** The prefix and suffix the combine stage looks for cannot overlap. */
  lemma PrefixSuffixLength(name: string)
    requires StartsWith(name, "page_") && EndsWith(name, ".md")
    ensures |name| >= 8
  {
    assert name[|name| - 3] == name[|name| - 3..][0] == '.';
  }

  /** The page number the combine stage reads from a transcript file name: the text
      between `page_` and `.md`, parsed as a `usize`; `None` for any other name. */
  function ParsePageNumber(name: string): (r: Option<nat>)
    ensures r.Some? ==> StartsWith(name, "page_") && EndsWith(name, ".md") && r.value <= USIZE_MAX
  {
    if StartsWith(name, "page_") && EndsWith(name, ".md") then
      PrefixSuffixLength(name);
      ParseUsize(name[5..|name| - 3])
    else None
  }

  /** The names the combine stage counts as page images. */
  predicate IsPageImage(name: string)
  {
    StartsWith(name, "page_") && EndsWith(name, ".png")
  }

  /** The names the transcription stage picks up as images to transcribe. */
  predicate IsCandidateImage(name: string)
  {
    EndsWith(name, ".png") && !StartsWith(name, "._")
  }

  lemma StemOfPageImage(index: nat)
    ensures FileStem(PageImageName(index)) == "page_" + ZeroPad4(index + 1)
  {
    var stem := "page_" + ZeroPad4(index + 1);
    PageImageNameParts(index);
    FileStemLastDot(stem, "png");
  }

  lemma PageImageNameParts(index: nat)
    ensures |"page_" + ZeroPad4(index + 1)| >= 5
    ensures PageImageName(index) == ("page_" + ZeroPad4(index + 1)) + "." + "png"
  {
    assert "." + "png" == ".png";
    AppendAssoc("page_" + ZeroPad4(index + 1), ".", "png");
  }


  /** The combine stage reads the part between `page_` and `.md`. */
  lemma ParsePageNumberOf(d: string)
    ensures ParsePageNumber("page_" + d + ".md") == ParseUsize(d)
  {
    var md := "page_" + d + ".md";
    assert md[..5] == "page_";
    assert md[|md| - 3..] == ".md";
    assert md[5..|md| - 3] == d;
  }

  /** The name round trip: the transcript written for the image of page `index`
      is `page_NNNN.md`, and the combine stage reads `index + 1` back from it. */
  lemma NameRoundTrip(index: nat)
    requires index + 1 <= USIZE_MAX
    ensures TranscriptName(PageImageName(index)) == "page_" + ZeroPad4(index + 1) + ".md"
    ensures ParsePageNumber(TranscriptName(PageImageName(index))) == Some(index + 1)
  {
    StemOfPageImage(index);
    ParsePageNumberOf(ZeroPad4(index + 1));
    ParseDecimal(index + 1);
  }

  /** Every extracted image is counted by the combine stage and picked up by the
      transcription stage, and distinct pages get distinct names. */
  lemma PageImageNameProperties(i: nat, j: nat)
    requires i + 1 <= USIZE_MAX && j + 1 <= USIZE_MAX
    ensures IsPageImage(PageImageName(i)) && IsCandidateImage(PageImageName(i))
    ensures PageImageName(i) == PageImageName(j) <==> i == j
  {
    var name := PageImageName(i);
    assert name[..5] == "page_";
    assert name[|name| - 4..] == ".png";
    assert name[..2] == "pa";
    NameRoundTrip(i);
    NameRoundTrip(j);
  }
}

=== FILE: page_sort.dfy ===
/**
 * `Vec::sort_by_key`, the stable sort the combine stage applies to the
 * transcripts it found, keyed by page number. Written as an insertion sort that
 * puts each element after every element with a key no larger than its own.
 */
module PageSort {

  import Text

  /** A transcript file the combine stage kept: its parsed page number, its file
      name, and the text `read_to_string` returns for it. */
  datatype PageFile = PageFile(number: nat, name: string, content: string)

  ghost predicate Sorted(s: seq<PageFile>)
  {
    forall i, j :: 0 <= i < j < |s| ==> s[i].number <= s[j].number
  }

  /** `x` when its key is `k`, nothing otherwise. */
  function KeyPart(x: PageFile, k: nat): seq<PageFile>
  {
    if x.number == k then [x] else []
  }

  /** The elements of `s` whose key is `k`, in the order they appear in `s`. */
  function WithNumber(s: seq<PageFile>, k: nat): seq<PageFile>
  {
    if s == [] then [] else KeyPart(s[0], k) + WithNumber(s[1..], k)
  }

  /** Insert `x` into `t` after every leading element whose key is at most its own. */
  function Insert(t: seq<PageFile>, x: PageFile): seq<PageFile>
  {
    if t == [] then [x]
    else if x.number < t[0].number then [x] + t
    else [t[0]] + Insert(t[1..], x)
  }

  /** `Vec::sort_by_key(|f| f.number)`: the files sorted by page number, equal
      numbers keeping their original order. */
  function SortByNumber(s: seq<PageFile>): seq<PageFile>
  {
    if s == [] then [] else Insert(SortByNumber(s[..|s| - 1]), s[|s| - 1])
  }

  lemma {:induction false} InsertPermutes(t: seq<PageFile>, x: PageFile)
    ensures multiset(Insert(t, x)) == multiset(t) + multiset{x}
  {
    if t != [] && x.number >= t[0].number {
      InsertPermutes(t[1..], x);
      assert t == [t[0]] + t[1..];
    }
  }

  /** The sort returns a permutation of its input. */
  lemma {:induction false} SortByNumberPermutes(s: seq<PageFile>)
    ensures multiset(SortByNumber(s)) == multiset(s)
  {
    if s != [] {
      SortByNumberPermutes(s[..|s| - 1]);
      InsertPermutes(SortByNumber(s[..|s| - 1]), s[|s| - 1]);
      assert s == s[..|s| - 1] + [s[|s| - 1]];
    }
  }

  /** Inserting an element no smaller than `lo` into elements no smaller than `lo`
      gives elements no smaller than `lo`. */
  lemma {:induction false} InsertAbove(t: seq<PageFile>, x: PageFile, lo: nat)
    requires lo <= x.number
    requires forall i :: 0 <= i < |t| ==> lo <= t[i].number
    ensures forall j :: 0 <= j < |Insert(t, x)| ==> lo <= Insert(t, x)[j].number
  {
    if t != [] && x.number >= t[0].number {
      InsertAbove(t[1..], x, lo);
      var rest := Insert(t[1..], x);
      assert Insert(t, x) == [t[0]] + rest;
      forall j | 0 <= j < |Insert(t, x)|
        ensures lo <= Insert(t, x)[j].number
      {
        if j > 0 {
          assert Insert(t, x)[j] == rest[j - 1];
        }
      }
    }
  }

  lemma {:induction false} InsertSorted(t: seq<PageFile>, x: PageFile)
    requires Sorted(t)
    ensures Sorted(Insert(t, x))
  {
    if t != [] && x.number >= t[0].number {
      var rest := Insert(t[1..], x);
      assert Sorted(t[1..]) by {
        forall i, j | 0 <= i < j < |t[1..]|
          ensures t[1..][i].number <= t[1..][j].number
        {
          assert t[1..][i] == t[i + 1] && t[1..][j] == t[j + 1];
        }
      }
      InsertSorted(t[1..], x);
      InsertAbove(t[1..], x, t[0].number);
      var r := [t[0]] + rest;
      assert Insert(t, x) == r;
      forall i, j | 0 <= i < j < |r|
        ensures r[i].number <= r[j].number
      {
        assert r[j] == rest[j - 1];
        if i > 0 {
          assert r[i] == rest[i - 1];
        }
      }
    }
  }

  /** The result of the sort is ordered by page number. */
  lemma {:induction false} SortByNumberSorted(s: seq<PageFile>)
    ensures Sorted(SortByNumber(s))
  {
    if s != [] {
      SortByNumberSorted(s[..|s| - 1]);
      InsertSorted(SortByNumber(s[..|s| - 1]), s[|s| - 1]);
    }
  }

  lemma {:induction false} WithNumberAppend(a: seq<PageFile>, b: seq<PageFile>, k: nat)
    ensures WithNumber(a + b, k) == WithNumber(a, k) + WithNumber(b, k)
  {
    if a == [] {
      assert a + b == b;
    } else {
      calc {
        WithNumber(a + b, k);
        { assert (a + b)[0] == a[0]; assert (a + b)[1..] == a[1..] + b; }
        KeyPart(a[0], k) + WithNumber(a[1..] + b, k);
        { WithNumberAppend(a[1..], b, k); }
        KeyPart(a[0], k) + (WithNumber(a[1..], k) + WithNumber(b, k));
        { Text.AppendAssoc(KeyPart(a[0], k), WithNumber(a[1..], k), WithNumber(b, k)); }
        WithNumber(a, k) + WithNumber(b, k);
      }
    }
  }

  lemma {:induction false} WithNumberAbove(t: seq<PageFile>, k: nat)
    requires forall i :: 0 <= i < |t| ==> k < t[i].number
    ensures WithNumber(t, k) == []
  {
    if t != [] {
      WithNumberAbove(t[1..], k);
    }
  }

  lemma {:induction false} InsertWithNumber(t: seq<PageFile>, x: PageFile, k: nat)
    requires Sorted(t)
    ensures WithNumber(Insert(t, x), k) == WithNumber(t, k) + KeyPart(x, k)
  {
    if t == [] {
    } else if x.number < t[0].number {
      if x.number == k {
        WithNumberAbove(t, k);
      }
      assert ([x] + t)[1..] == t;
    } else {
      InsertWithNumber(t[1..], x, k);
      var rest := Insert(t[1..], x);
      assert ([t[0]] + rest)[1..] == rest;
    }
  }

  lemma InsertIntoSorted(init: seq<PageFile>, x: PageFile, k: nat)
    ensures WithNumber(Insert(SortByNumber(init), x), k) == WithNumber(SortByNumber(init), k) + KeyPart(x, k)
  {
    SortByNumberSorted(init);
    InsertWithNumber(SortByNumber(init), x, k);
  }

  lemma WithNumberSnoc(init: seq<PageFile>, x: PageFile, k: nat)
    ensures WithNumber(init + [x], k) == WithNumber(init, k) + KeyPart(x, k)
  {
    assert [x][1..] == [];
    WithNumberAppend(init, [x], k);
  }

  /** The sort is stable: for every key, the elements with that key appear in the
      result in the same order as in the input. Together with `SortByNumberPermutes`
      and `SortByNumberSorted` this fixes the result completely. */
  lemma {:induction false} SortByNumberStable(s: seq<PageFile>, k: nat)
    ensures WithNumber(SortByNumber(s), k) == WithNumber(s, k)
  {
    if s != [] {
      var init := s[..|s| - 1];
      var last := s[|s| - 1];
      calc {
        WithNumber(SortByNumber(s), k);
        WithNumber(Insert(SortByNumber(init), last), k);
        { InsertIntoSorted(init, last, k); }
        WithNumber(SortByNumber(init), k) + KeyPart(last, k);
        { SortByNumberStable(init, k); }
        WithNumber(init, k) + KeyPart(last, k);
        { WithNumberSnoc(init, last, k); }
        WithNumber(init + [last], k);
        { assert s == init + [last]; }
        WithNumber(s, k);
      }
    }
  }

  /** Already sorted input is returned unchanged. */
  lemma {:induction false} SortByNumberOfSorted(s: seq<PageFile>)
    requires Sorted(s)
    ensures SortByNumber(s) == s
  {
    if s != [] {
      var init := s[..|s| - 1];
      SortByNumberOfSorted(init);
      InsertAtEnd(init, s[|s| - 1]);
      assert s == init + [s[|s| - 1]];
    }
  }

  lemma {:induction false} InsertAtEnd(t: seq<PageFile>, x: PageFile)
    requires Sorted(t)
    requires forall i :: 0 <= i < |t| ==> t[i].number <= x.number
    ensures Insert(t, x) == t + [x]
  {
    if t != [] {
      InsertAtEnd(t[1..], x);
      assert t == [t[0]] + t[1..];
    }
  }
}

=== FILE: stages.dfy ===
/**
 * The selection and bookkeeping of the extraction stage (`extract_pdf`) and the
 * transcription stage (`transcribe_images`). The PDF renderer and the model
 * service are parameters: the set of pages whose rendering fails, and the reply
 * text the service returns per image (absent when the request fails).
 */
module Stages {
  import opened Wrappers
  import opened Text
  import opened Numbers
  import opened PageNames
  import opened Fence
  import Combine

  /** `limit.map(|l| l.min(total)).unwrap_or(total)`. */
  function NumPages(limit: Option<nat>, total: nat): (n: nat)
    ensures n <= total
    ensures limit.None? ==> n == total
    ensures limit.Some? ==> n <= limit.value && (n == total || n == limit.value)
  {
    match limit
    case None => total
    case Some(l) => if l < total then l else total
  }

  /** What happened to one page of the PDF. */
  datatype PageOutcome = Present | Rendered | RenderFailed

  /** Opening the PDF or reading its page count failed. */
  datatype ExtractError = OpenFailed

  /** The page image of page index `i` is skipped when its file already exists,
      and otherwise rendered; a failed render is reported and the stage goes on. */
  function ExtractPage(i: nat, existing: set<string>, failing: set<nat>): PageOutcome
  {
    if PageImageName(i) in existing then Present
    else if i in failing then RenderFailed
    else Rendered
  }

  /** `extract_pdf`: `pageCount` is the document's page count, absent when the
      document cannot be opened; `existing` holds the file names already in the
      output directory; `failing` the page indices whose rendering fails. */
  function ExtractPdf(pageCount: Option<nat>, limit: Option<nat>, existing: set<string>, failing: set<nat>)
    : (r: Result<seq<PageOutcome>, ExtractError>)
    ensures r.Failure? <==> pageCount.None?
    ensures r.Success? ==> |r.value| == NumPages(limit, pageCount.value)
    ensures r.Success? ==> forall i :: 0 <= i < |r.value| ==>
              (r.value[i] == Present <==> PageImageName(i) in existing)
              && (r.value[i] == RenderFailed <==> PageImageName(i) !in existing && i in failing)
  {
    match pageCount
    case None => Failure(OpenFailed)
    case Some(total) =>
      var n := NumPages(limit, total);
      Success(seq(n, i requires 0 <= i < n => ExtractPage(i, existing, failing)))
  }

  /** The files in the output directory after a run. */
  function AfterExtract(existing: set<string>, outcomes: seq<PageOutcome>): set<string>
  {
    existing + set i | 0 <= i < |outcomes| && outcomes[i] == Rendered :: PageImageName(i)
  }

  /** A rerun resumes: every page the first run rendered or found is found, so only
      pages whose rendering failed are rendered again; after a run without failures
      a rerun renders nothing. */
  lemma ExtractResumes(pageCount: nat, limit: Option<nat>, existing: set<string>, failing: set<nat>,
                       failing2: set<nat>)
    ensures var first := ExtractPdf(Some(pageCount), limit, existing, failing).value;
            var second := ExtractPdf(Some(pageCount), limit, AfterExtract(existing, first), failing2).value;
            && |second| == |first|
            && (forall i :: 0 <= i < |first| && first[i] != RenderFailed ==> second[i] == Present)
            && ((forall i :: 0 <= i < |first| ==> first[i] != RenderFailed) ==>
                  forall i :: 0 <= i < |second| ==> second[i] == Present)
  {
    var first := ExtractPdf(Some(pageCount), limit, existing, failing).value;
    var after := AfterExtract(existing, first);
    forall i | 0 <= i < |first| && first[i] == Rendered
      ensures PageImageName(i) in after
    {
    }
  }

  /** Distinct pages are written to distinct files. */
  lemma ExtractNamesDistinct(i: nat, j: nat)
    requires i + 1 <= USIZE_MAX && j + 1 <= USIZE_MAX && i != j
    ensures PageImageName(i) != PageImageName(j)
  {
    PageImageNameProperties(i, j);
  }

  /** The names of the transcription candidates in listing order: files ending in
      `.png` that are not `._` resource forks. */
  function CandidateNames(listing: seq<Combine.Entry>): (r: seq<string>)
    ensures |r| <= |listing|
    ensures forall k :: 0 <= k < |r| ==> IsCandidateImage(r[k])
    ensures forall e :: e in listing && e.isFile && IsCandidateImage(e.name) ==> e.name in r
  {
    if listing == [] then []
    else
      assert listing == [listing[0]] + listing[1..];
      var e := listing[0];
      (if e.isFile && IsCandidateImage(e.name) then [e.name] else []) + CandidateNames(listing[1..])
  }

  /** The selection works entry by entry: the names of a split listing are the
      names of its first part followed by those of its second. */
  lemma {:induction false} CandidateNamesAppend(a: seq<Combine.Entry>, b: seq<Combine.Entry>)
    ensures CandidateNames(a + b) == CandidateNames(a) + CandidateNames(b)
  {
    if a == [] {
      assert a + b == b;
    } else {
      var e := a[0];
      var h := if e.isFile && IsCandidateImage(e.name) then [e.name] else [];
      assert (a + b)[0] == e;
      assert (a + b)[1..] == a[1..] + b;
      assert CandidateNames(a) == h + CandidateNames(a[1..]);
      assert CandidateNames(a + b) == h + CandidateNames(a[1..] + b);
      CandidateNamesAppend(a[1..], b);
      Text.AppendAssoc(h, CandidateNames(a[1..]), CandidateNames(b));
    }
  }

  /** A single entry contributes its name exactly when it is a candidate file. */
  lemma CandidateNamesOne(e: Combine.Entry)
    ensures CandidateNames([e]) == if e.isFile && IsCandidateImage(e.name) then [e.name] else []
  {
    assert [e][1..] == [];
  }

  /** `Vec::truncate(limit)` of the candidates. */
  function Candidates(listing: seq<Combine.Entry>, limit: Option<nat>): (r: seq<string>)
    ensures |r| == NumPages(limit, |CandidateNames(listing)|)
    ensures r == CandidateNames(listing)[..|r|]
  {
    var all := CandidateNames(listing);
    match limit
    case Some(l) => if l < |all| then all[..l] else all
    case None => all
  }

  /** What one transcription task did. */
  datatype Outcome =
    | Skipped(output: string)
    | Transcribed(output: string, text: string)
    | Failed(image: string)

  /** The walk over the input directory failed. */
  datatype TranscribeError = WalkFailed

  /** The counts a run reports: every task's outcome, and how many failed. */
  datatype TranscribeReport = TranscribeReport(outcomes: seq<Outcome>, failures: nat)

  /** One task: skip the image when its transcript exists, otherwise write the
      reply after the fence clean-up as the program performs it; a failed request,
      or a reply without content, fails the task. */
  function TranscribeOne(image: string, existing: set<string>, replies: map<string, string>): (o: Outcome)
    ensures o.Skipped? <==> TranscriptName(image) in existing
    ensures o.Failed? <==> TranscriptName(image) !in existing && image !in replies
    ensures o.Transcribed? ==> o.output == TranscriptName(image) && o.text == StripFenceAsWritten(replies[image])
    ensures o.Transcribed? ==> |o.text| <= |replies[image]| && IsInfix(o.text, replies[image])
  {
    var output := TranscriptName(image);
    if output in existing then Skipped(output)
    else if image in replies then Transcribed(output, StripFenceAsWritten(replies[image]))
    else Failed(image)
  }

  /** A reply made of a code block followed by prose is written without the prose:
      the task keeps only the code, where the intended clean-up would keep the reply. */
  lemma TranscribeDropsProse(image: string, existing: set<string>, info: string, code: string, prose: string)
    requires TranscriptName(image) !in existing
    requires '\n' !in info && '`' !in prose
    requires prose != [] && !IsWhitespace(prose[|prose| - 1])
    ensures var reply := CodeThenProse(info, code, prose);
            var o := TranscribeOne(image, existing, map[image := reply]);
            o.Transcribed? && o.text == TrimEnd(code) && StripFence(reply) == reply
  {
    AsWrittenDropsProse(info, code, prose);
  }

  /** The number of failed tasks. */
  function FailureCount(outcomes: seq<Outcome>): (n: nat)
    ensures n <= |outcomes|
    ensures n == 0 <==> forall k :: 0 <= k < |outcomes| ==> !outcomes[k].Failed?
  {
    if outcomes == [] then 0
    else (if outcomes[|outcomes| - 1].Failed? then 1 else 0) + FailureCount(outcomes[..|outcomes| - 1])
  }

  /** The failures are counted exactly: one per failed task. */
  lemma {:induction false} FailureCountIsSize(outcomes: seq<Outcome>)
    ensures FailureCount(outcomes) == |set k | 0 <= k < |outcomes| && outcomes[k].Failed?|
  {
    if outcomes != [] {
      var m := |outcomes| - 1;
      var init := outcomes[..m];
      FailureCountIsSize(init);
      var s := set k | 0 <= k < |outcomes| && outcomes[k].Failed?;
      var s0 := set k | 0 <= k < m && init[k].Failed?;
      if outcomes[m].Failed? {
        assert s == s0 + {m};
      } else {
        assert s == s0;
      }
    }
  }

  /** `transcribe_images`: `listing` is the walk of the input directory in file
      name order, absent when the walk fails; `existing` the file names already in
      the output directory; `replies` the service's reply per image. Failed tasks
      are counted, and the stage still succeeds. */
  function TranscribeStage(listing: Option<seq<Combine.Entry>>, limit: Option<nat>, existing: set<string>,
                           replies: map<string, string>)
    : (r: Result<TranscribeReport, TranscribeError>)
    ensures r.Success? <==> listing.Some?
    ensures r.Success? ==>
              && |r.value.outcomes| == |Candidates(listing.value, limit)|
              && r.value.failures == |set k | 0 <= k < |r.value.outcomes| && r.value.outcomes[k].Failed?|
    ensures r.Success? ==>
              forall k :: 0 <= k < |r.value.outcomes| ==>
                r.value.outcomes[k] == TranscribeOne(Candidates(listing.value, limit)[k], existing, replies)
  {
    match listing
    case None => Failure(WalkFailed)
    case Some(entries) =>
      var images := Candidates(entries, limit);
      var outcomes := seq(|images|, k requires 0 <= k < |images| => TranscribeOne(images[k], existing, replies));
      FailureCountIsSize(outcomes);
      Success(TranscribeReport(outcomes, FailureCount(outcomes)))
  }

  /** The file names in the output directory after a run. */
  function AfterTranscribe(existing: set<string>, outcomes: seq<Outcome>): set<string>
  {
    existing + set k | 0 <= k < |outcomes| && outcomes[k].Transcribed? :: outcomes[k].output
  }

  /** When every task that did not fail the first time is skipped the second time,
      no more tasks fail the second time. */
  lemma FailuresShrink(o1: seq<Outcome>, o2: seq<Outcome>)
    requires |o1| == |o2|
    requires forall k :: 0 <= k < |o1| && !o1[k].Failed? ==> o2[k].Skipped?
    ensures |set k | 0 <= k < |o2| && o2[k].Failed?| <= |set k | 0 <= k < |o1| && o1[k].Failed?|
  {
    var f1 := set k | 0 <= k < |o1| && o1[k].Failed?;
    var f2 := set k | 0 <= k < |o2| && o2[k].Failed?;
    assert f2 <= f1;
    SubsetSize(f2, f1);
  }

  /** A rerun resumes: every image the first run transcribed or skipped is skipped,
      so only the failed ones are sent again and at most as many fail. */
  lemma TranscribeResumes(entries: seq<Combine.Entry>, limit: Option<nat>, existing: set<string>,
                          replies: map<string, string>, replies2: map<string, string>)
    ensures var first := TranscribeStage(Some(entries), limit, existing, replies).value;
            var second := TranscribeStage(Some(entries), limit, AfterTranscribe(existing, first.outcomes),
                                          replies2).value;
            && |second.outcomes| == |first.outcomes|
            && (forall k :: 0 <= k < |first.outcomes| && !first.outcomes[k].Failed? ==>
                  second.outcomes[k].Skipped?)
            && second.failures <= first.failures
  {
    var o1 := TranscribeStage(Some(entries), limit, existing, replies).value.outcomes;
    var after := AfterTranscribe(existing, o1);
    var o2 := TranscribeStage(Some(entries), limit, after, replies2).value.outcomes;
    forall k | 0 <= k < |o1| && !o1[k].Failed?
      ensures o2[k].Skipped?
    {
      if o1[k].Transcribed? {
        assert o1[k].output in after;
      }
    }
    FailuresShrink(o1, o2);
  }

  lemma SubsetSize(a: set<nat>, b: set<nat>)
    requires a <= b
    ensures |a| <= |b|
  {
    assert b == a + (b - a);
  }

  /** The stem of a `.png` name other than `.png` itself is the name without the
      extension. */
  lemma PngStem(name: string)
    requires EndsWith(name, ".png") && name != ".png"
    ensures FileStem(name) == name[..|name| - 4]
  {
    var a := name[..|name| - 4];
    assert name[|name| - 4..] == ".png";
    assert name == a + "." + "png";
    assert a != [];
    FileStemLastDot(a, "png");
  }

  /** The image name can be read back from its transcript name. */
  lemma PngFromTranscriptName(a: string)
    requires EndsWith(a, ".png") && FileStem(a) == a[..|a| - 4]
    ensures var t := TranscriptName(a); |t| >= 3 && a == t[..|t| - 3] + ".png"
  {
    var t := TranscriptName(a);
    assert t == a[..|a| - 4] + ".md";
    assert t[..|t| - 3] == a[..|a| - 4];
    assert a == a[..|a| - 4] + a[|a| - 4..];
  }

  /** The candidates `.png` and `.png.png` share the transcript `.png.md`: the
      stem of a name starting with its only dot is the whole name. */
  lemma DotPngCollision()
    ensures IsCandidateImage(".png") && IsCandidateImage(".png.png")
    ensures TranscriptName(".png") == TranscriptName(".png.png") == ".png.md"
  {
    DotPngCandidates();
    DotPngStems();
  }

  lemma DotPngStems()
    ensures FileStem(".png") == ".png" && FileStem(".png.png") == ".png"
  {
    assert "." + "png" == ".png";
    FileStemLeadingDot("png");
    assert ".png" + "." + "png" == ".png.png";
    FileStemLastDot(".png", "png");
  }

  lemma DotPngCandidates()
    ensures IsCandidateImage(".png") && IsCandidateImage(".png.png")
  {
    assert !StartsWith(".png", "._") by {
      assert ".png"[..2][1] == 'p';
    }
    assert !StartsWith(".png.png", "._") by {
      assert ".png.png"[..2][1] == 'p';
    }
    assert EndsWith(".png.png", ".png") by {
      assert ".png.png"[4..] == ".png";
    }
  }


  /** Two candidate images of one directory never share a transcript name, unless
      one of them is `.png` itself (see `DotPngCollision`). */
  lemma TranscriptNamesDistinct(a: string, b: string)
    requires EndsWith(a, ".png") && a != ".png"
    requires EndsWith(b, ".png") && b != ".png"
    requires a != b
    ensures TranscriptName(a) != TranscriptName(b)
  {
    PngStem(a);
    PngStem(b);
    PngFromTranscriptName(a);
    PngFromTranscriptName(b);
  }
}

=== FILE: text.dfy ===
/**
 * The string primitives the pipeline relies on, written over `seq<char>` with the
 * behaviour of the Rust standard library functions they stand for: `trim`,
 * `trim_start`, `trim_end`, `starts_with`, `ends_with`, `find`, `rfind`, `lines`,
 * `join`, `repeat` and `replace` of one character.
 */
module Text {
  import opened Wrappers

  /** The Unicode White_Space property, used by `char::is_whitespace` and by the
      regex class `\s`. */
  predicate IsWhitespace(c: char)
  {
    ('\t' <= c <= '\r') || c == ' ' || c == '\U{85}' || c == '\U{A0}' || c == '\U{1680}'
    || ('\U{2000}' <= c <= '\U{200A}') || c == '\U{2028}' || c == '\U{2029}'
    || c == '\U{202F}' || c == '\U{205F}' || c == '\U{3000}'
  }

  predicate StartsWith(s: string, prefix: string)
  {
    |prefix| <= |s| && s[..|prefix|] == prefix
  }

  predicate EndsWith(s: string, suffix: string)
  {
    |suffix| <= |s| && s[|s| - |suffix|..] == suffix
  }

  /** `pat` occurs in `s` starting at index `k`. */
  predicate OccursAt(s: string, k: int, pat: string)
  {
    0 <= k && k + |pat| <= |s| && s[k..k + |pat|] == pat
  }

  /** `str::trim_start`: drop the leading whitespace. */
  function TrimStart(s: string): (r: string)
    ensures |r| <= |s| && r == s[|s| - |r|..]
    ensures forall k :: 0 <= k < |s| - |r| ==> IsWhitespace(s[k])
    ensures r == [] || !IsWhitespace(r[0])
  {
    if s == [] || !IsWhitespace(s[0]) then s else TrimStart(s[1..])
  }

  /** `str::trim_end`: drop the trailing whitespace. */
  function TrimEnd(s: string): (r: string)
    ensures |r| <= |s| && r == s[..|r|]
    ensures forall k :: |r| <= k < |s| ==> IsWhitespace(s[k])
    ensures r == [] || !IsWhitespace(r[|r| - 1])
  {
    if s == [] || !IsWhitespace(s[|s| - 1]) then s else TrimEnd(s[..|s| - 1])
  }

  /** `str::trim`: drop whitespace at both ends. */
  function Trim(s: string): string
  {
    TrimEnd(TrimStart(s))
  }

  predicate AllWhitespace(s: string)
  {
    forall k :: 0 <= k < |s| ==> IsWhitespace(s[k])
  }

  /** `trim_start` removes exactly a whitespace padding in front of a text that does
      not itself start with whitespace. */
  lemma {:induction false} TrimStartPadded(ws: string, m: string)
    requires AllWhitespace(ws)
    requires m == [] || !IsWhitespace(m[0])
    ensures TrimStart(ws + m) == m
  {
    if ws == [] {
      assert ws + m == m;
    } else {
      assert (ws + m)[1..] == ws[1..] + m;
      TrimStartPadded(ws[1..], m);
    }
  }

  /** Whitespace put in front of any text does not change its `trim_start`. */
  lemma TrimStartSkipsWhitespace(ws: string, x: string)
    requires AllWhitespace(ws)
    ensures TrimStart(ws + x) == TrimStart(x)
  {
    var m := TrimStart(x);
    var p := x[..|x| - |m|];
    assert x == p + m;
    assert ws + x == (ws + p) + m by { AppendAssoc(ws, p, m); }
    assert AllWhitespace(ws + p);
    TrimStartPadded(ws + p, m);
  }

  /** `trim_end` removes exactly a whitespace padding behind a text that does not
      itself end with whitespace. */
  lemma {:induction false} TrimEndPadded(m: string, ws: string)
    requires AllWhitespace(ws)
    requires m == [] || !IsWhitespace(m[|m| - 1])
    ensures TrimEnd(m + ws) == m
  {
    if ws == [] {
      assert m + ws == m;
    } else {
      var init := ws[..|ws| - 1];
      assert (m + ws)[..|m + ws| - 1] == m + init;
      TrimEndPadded(m, init);
    }
  }

  lemma AppendAssoc<T>(a: seq<T>, b: seq<T>, c: seq<T>)
    ensures (a + b) + c == a + (b + c)
  {
  }

  /** `trim` splits a text into leading whitespace, the trimmed text and trailing
      whitespace. */
  lemma TrimSplit(s: string) returns (lead: string, trail: string)
    ensures AllWhitespace(lead) && AllWhitespace(trail)
    ensures s == lead + Trim(s) + trail
  {
    var ts := TrimStart(s);
    var t := TrimEnd(ts);
    PaddingSplit(s, ts, t);
    lead := s[..|s| - |ts|];
    trail := ts[|t|..];
  }

  lemma PaddingSplit(s: string, ts: string, t: string)
    requires |ts| <= |s| && ts == s[|s| - |ts|..]
    requires |t| <= |ts| && t == ts[..|t|]
    requires forall k :: 0 <= k < |s| - |ts| ==> IsWhitespace(s[k])
    requires forall k :: |t| <= k < |ts| ==> IsWhitespace(ts[k])
    ensures AllWhitespace(s[..|s| - |ts|]) && AllWhitespace(ts[|t|..])
    ensures s == s[..|s| - |ts|] + t + ts[|t|..]
  {
    assert s == s[..|s| - |ts|] + ts;
    assert ts == t + ts[|t|..];
    forall k | 0 <= k < |ts| - |t| ensures IsWhitespace(ts[|t|..][k]) {
      assert ts[|t|..][k] == ts[|t| + k];
    }
  }

  /** `str::find(c)` for one character: the first index holding `c`. */
  function FindChar(s: string, c: char): (r: Option<nat>)
    ensures r.Some? ==> r.value < |s| && s[r.value] == c && c !in s[..r.value]
    ensures r.None? ==> c !in s
  {
    if s == [] then None
    else if s[0] == c then Some(0)
    else match FindChar(s[1..], c)
      case None => None
      case Some(k) => assert s[..k + 1] == [s[0]] + s[1..][..k]; Some(k + 1)
  }

  /** `find` stops at the first occurrence: in `a + [c] + b` with no `c` in `a`,
      that is the one after `a`. */
  lemma {:induction false} FindCharAfter(a: string, c: char, b: string)
    requires c !in a
    ensures FindChar(a + [c] + b, c) == Some(|a|)
  {
    if a != [] {
      assert (a + [c] + b)[1..] == a[1..] + [c] + b;
      FindCharAfter(a[1..], c, b);
    }
  }

  /** The first index at or after `from` holding `c`. */
  function FindCharFrom(s: string, from: nat, c: char): (r: Option<nat>)
    requires from <= |s|
    decreases |s| - from
    ensures r.Some? ==> from <= r.value < |s| && s[r.value] == c
                        && forall k :: from <= k < r.value ==> s[k] != c
    ensures r.None? ==> forall k :: from <= k < |s| ==> s[k] != c
  {
    if from == |s| then None
    else if s[from] == c then Some(from)
    else FindCharFrom(s, from + 1, c)
  }

  /** `str::rfind(pat)`: the start of the last occurrence of `pat`. */
  function RFind(s: string, pat: string): (r: Option<nat>)
    ensures r.Some? ==> OccursAt(s, r.value, pat)
                        && forall k :: r.value < k ==> !OccursAt(s, k, pat)
    ensures r.None? ==> forall k :: !OccursAt(s, k, pat)
  {
    RFindBelow(s, pat, |s| + 1)
  }

  /** The last occurrence of `pat` that starts before `bound`. */
  function RFindBelow(s: string, pat: string, bound: nat): (r: Option<nat>)
    ensures r.Some? ==> r.value < bound && OccursAt(s, r.value, pat)
                        && forall k :: r.value < k < bound ==> !OccursAt(s, k, pat)
    ensures r.None? ==> forall k :: k < bound ==> !OccursAt(s, k, pat)
  {
    if bound == 0 then None
    else if OccursAt(s, bound - 1, pat) then Some(bound - 1)
    else RFindBelow(s, pat, bound - 1)
  }

  /** Drop one trailing carriage return, as `str::lines` does after a line feed. */
  function StripCarriageReturn(line: string): string
  {
    if line != [] && line[|line| - 1] == '\r' then line[..|line| - 1] else line
  }

  /** `str::lines`: split at every line feed, dropping a carriage return that
      precedes it; a final line feed does not start an empty last line. */
  function Lines(s: string): (r: seq<string>)
    ensures forall i :: 0 <= i < |r| ==> '\n' !in r[i]
    ensures s == [] <==> r == []
  {
    match FindChar(s, '\n')
    case None => if s == [] then [] else [s]
    case Some(p) =>
      assert s[..p] == s[..p + 1][..p];
      [StripCarriageReturn(s[..p])] + Lines(s[p + 1..])
  }

  /** A text without a line feed is a single line, kept whole: a carriage return
      is only dropped in front of a line feed. */
  lemma LinesOfLine(a: string)
    requires '\n' !in a && a != []
    ensures Lines(a) == [a]
  {
    assert FindChar(a, '\n').None?;
  }

  /** The first line feed ends the first line; the rest of the text gives the
      remaining lines. */
  lemma LinesCons(a: string, b: string)
    requires '\n' !in a
    ensures Lines(a + "\n" + b) == [StripCarriageReturn(a)] + Lines(b)
  {
    var s := a + "\n" + b;
    FindCharAfter(a, '\n', b);
    assert s[..|a|] == a;
    assert s[|a| + 1..] == b;
  }

  /** A line ended by `\r\n` loses both characters. */
  lemma LinesCrLf(a: string, b: string)
    requires '\n' !in a
    ensures Lines(a + "\r\n" + b) == [a] + Lines(b)
  {
    assert a + "\r\n" + b == (a + "\r") + "\n" + b;
    LinesCons(a + "\r", b);
    assert (a + "\r")[..|a|] == a;
  }

  /** `[String]::join(sep)`. */
  function Join(parts: seq<string>, sep: string): string
  {
    if parts == [] then []
    else if |parts| == 1 then parts[0]
    else parts[0] + sep + Join(parts[1..], sep)
  }

  /** Joining one more part adds the separator and that part at the end. */
  lemma {:induction false} JoinSnoc(parts: seq<string>, x: string, sep: string)
    requires parts != []
    ensures Join(parts + [x], sep) == Join(parts, sep) + sep + x
    decreases |parts|
  {
    var all := parts + [x];
    assert all[0] == parts[0] && all[1..] == parts[1..] + [x];
    if |parts| == 1 {
      assert Join(all[1..], sep) == x;
    } else {
      JoinSnoc(parts[1..], x, sep);
      var j := Join(parts[1..], sep);
      assert Join(all, sep) == parts[0] + sep + (j + sep + x);
      assert Join(parts, sep) == parts[0] + sep + j;
    }
  }

  /** A single part is joined as itself, with no separator. */
  lemma JoinOne(x: string, sep: string)
    ensures Join([x], sep) == x
  {
  }

  /** A text made of three parts starts with the first and ends with the last. */
  lemma OpensAndCloses(a: string, b: string, c: string)
    ensures StartsWith(a + b + c, a) && EndsWith(a + b + c, c)
  {
    assert (a + b + c)[..|a|] == a;
    assert (a + b + c)[|a + b|..] == c;
  }

  /** The strings of `parts` one after another. */
  function Concat(parts: seq<string>): string
  {
    if parts == [] then [] else parts[0] + Concat(parts[1..])
  }

  /** Concatenation splits around any part. */
  lemma {:induction false} ConcatSplit(parts: seq<string>, i: nat)
    requires i < |parts|
    ensures Concat(parts) == Concat(parts[..i]) + parts[i] + Concat(parts[i + 1..])
  {
    if i == 0 {
      assert parts[..0] == [];
      assert Concat(parts[..0]) == [];
    } else {
      ConcatSplit(parts[1..], i - 1);
      assert parts[1..][..i - 1] == parts[1..i] == parts[..i][1..];
      assert parts[1..][i..] == parts[i + 1..];
    }
  }

  /** `str::repeat(n)`. */
  function Repeat(s: string, n: nat): (r: string)
    ensures |r| == |s| * n
    ensures n > 0 ==> StartsWith(r, s)
    ensures forall k :: |s| <= k < |r| ==> r[k] == r[k - |s|]
  {
    if n == 0 then [] else s + Repeat(s, n - 1)
  }

  /** `str::replace(from, to)` for a single character replaced by a single character. */
  function ReplaceChar(s: string, from: char, to: char): (r: string)
    ensures |r| == |s|
    ensures forall k :: 0 <= k < |s| ==> r[k] == (if s[k] == from then to else s[k])
  {
    if s == [] then [] else [if s[0] == from then to else s[0]] + ReplaceChar(s[1..], from, to)
  }

  /** `Path::file_stem` of a file name: the part before the last `.`, or the whole
      name when it has no `.` other than a leading one (and for `..`). */
  function FileStem(name: string): (r: string)
    ensures StartsWith(name, r)
  {
    if name == ".." then name
    else match RFind(name, ".")
      case None => name
      case Some(p) => if p == 0 then name else name[..p]
  }

  /** A name without a `.` is its own stem. */
  lemma FileStemNoDot(name: string)
    requires '.' !in name
    ensures FileStem(name) == name
  {
    forall k | 0 <= k && k + 1 <= |name|
      ensures !OccursAt(name, k, ".")
    {
      assert name[k..k + 1][0] == name[k];
    }
  }

  /** A name whose only `.` is its first character is its own stem, as for hidden
      files. */
  lemma FileStemLeadingDot(b: string)
    requires '.' !in b
    ensures FileStem("." + b) == "." + b
  {
    var name := "." + b;
    assert OccursAt(name, 0, ".");
    forall k | 0 < k
      ensures !OccursAt(name, k, ".")
    {
      if k + 1 <= |name| {
        assert name[k] == b[k - 1];
        assert name[k..k + 1][0] == name[k];
      }
    }
    assert RFind(name, ".") == Some(0);
  }

  /** The stem of `a.b`, with no `.` in the extension `b`, is `a`, whatever dots `a`
      holds; only `..` itself is kept whole. */
  lemma FileStemLastDot(a: string, b: string)
    requires a != [] && '.' !in b
    requires !(a == "." && b == [])
    ensures FileStem(a + "." + b) == a
  {
    var name := a + "." + b;
    var p := |a|;
    var tail := "." + b;
    assert name == a + tail;
    assert name[p..p + 1] == ".";
    forall k | p < k
      ensures !OccursAt(name, k, ".")
    {
      if k + 1 <= |name| {
        assert name[k] == tail[k - p];
        assert tail[k - p] == b[k - p - 1];
        assert name[k..k + 1][0] == name[k];
      }
    }
    assert OccursAt(name, p, ".");
    assert RFind(name, ".") == Some(p);
    assert name[..p] == a;
  }
}

=== FILE: wrappers.dfy ===
/** Failure-carrying datatypes used by every stage of the model. */
module Wrappers {

  datatype Option<+T> = None | Some(value: T)

  /** The value of an operation that may fail with an error of type E. */
  datatype Result<+R, +E> = Success(value: R) | Failure(error: E)
}
